=== FILE: README.md ===
# Image raster and Netpbm codec

A Dafny model of `HW1/main.cpp`, a small C++ image library. It covers:

- `Image::Rgb`, a pixel of three channels, and its compound operators;
- `Image`, a `w x h` raster stored as a flat row-major buffer, with its element
  access and arithmetic operators and the alpha blend built from them;
- `savePPM`, which writes the binary full-colour Netpbm format (P6);
- `readPPM`, which reads P6 and P5 (binary) and P3 and P2 (plain text), and
  returns the empty image for any other tag or for a file that cannot be
  opened.

Images are values (`Raster.Image`), so every operator is a pure function.
The C++ "mutating" operators return the new receiver. Channels are exact
reals.

The codec works on byte sequences. The decoder runs on an explicit model of
`std::istream` (`Istream`): the bytes not yet extracted plus `eofbit` and
`failbit`, with the C++ standard library's rules for `>>` into a string, an
`int` and an `unsigned char`, and for `read`, `ignore` and `getline`.
`readPPM`'s result is `None` where the C++ has no defined result:
- an uninitialised `w`, `h` or `pix` is read (a truncated body, whose first P6 `read` is short or whose first P5 `>> pix` fails);
- a signed product overflows;
- `new[]` is given a negative size and throws an exception that escapes `readPPM`;
- `atoi` overflows;
- the comment loop never ends.

It is also `None` where the C++ builds an image outside `Raster.Valid`:
- the image has more than 2^31 - 1 pixels;
- its buffer does not hold w*h pixels.

Modules:
- `Native`: bytes, `int` limits, C character classes, decimal numerals.
- `Optional`: the `Option` type.
- `Pixel`: `Rgb` and its operators.
- `Raster`: `Image` and its operators.
- `Istream`: the stream model.
- `Netpbm`: `savePPM` and `readPPM`.
- `GrayBytes`: the P5 pixel loop against the bytes it reads.
- `RoundTrip`: what the P6 pixel loop reads from a body, and what `readPPM` gives back for the output of `savePPM`.
- `PlainText`: the plain-text branch against the P3 layout, and the finding below.
- `PlainGray`: the same for the P2 layout.

The plain-text branches keep the last word they read in `line`. A comment
line leaves its text after the first word there. When the file holds a pixel
word, the pixel loop overwrites it and the comment changes nothing. When the
header announces pixels but no pixel word follows it, every pixel takes the level of
that stale text, so the comment shows through (`PlainText.CommentLeaks`).

## Model

| member | source | states |
|---|---|---|
| Pixel.DiffersIsNotInequality | HW1/main.cpp:20 | `!=` implies inequality, but two pixels that differ in only one channel are unequal and yet not `!=`: the operator is not the negation of `==` |
| Pixel.Modulate | HW1/main.cpp:21 | each channel is the product of the two pixels' channels; multiplying by a grey pixel is scaling by its level, and by grey 1 the identity |
| Pixel.ModulateCommutes | HW1/main.cpp:21 | channel-wise multiplication does not depend on the order of its operands |
| Pixel.Scale | HW1/main.cpp:22 | every channel is multiplied by k; k = 1 leaves the pixel unchanged and k = 0 gives black |
| Pixel.ScaleCompose | HW1/main.cpp:22 | scaling by k and then by m is scaling by k*m |
| Pixel.Sum | HW1/main.cpp:23 | the sum is unclamped: subtracting the addend from it gives back the receiver exactly, channel by channel |
| Pixel.ClampedSub | HW1/main.cpp:24-26 | each channel becomes max(0, a - b): never negative, never below a - b, and equal to one of them, even for negative inputs |
| Pixel.ClampedSubExample | HW1/main.cpp:24-26 | (10,10,10) minus (20,5,5) is (0,5,5) |
| Pixel.SubThenAdd | HW1/main.cpp:23-26 | subtracting then adding back restores the pixel if and only if no channel was clamped |
| Pixel.AddThenSub | HW1/main.cpp:23-26 | adding then subtracting restores every non-negative pixel |
| Raster.Sized | HW1/main.cpp:33-38 | the sized constructor gives a well-formed w x h image, every pixel of which is the fill colour |
| Raster.OffsetInBounds | HW1/main.cpp:66-70 | for x < w and y < h, the index y*w + x is below w*h |
| Raster.Offset | HW1/main.cpp:66-70 | the index `operator()` addresses lies inside the buffer |
| Raster.OffsetInjective | HW1/main.cpp:66-70 | distinct in-bounds coordinates address distinct buffer cells |
| Raster.OffsetOnto | HW1/main.cpp:66-70 | every buffer cell is addressed by the coordinates (i % w, i / w) |
| Raster.At | HW1/main.cpp:66-70 | the pixel `operator()` reads is one of the buffer's pixels |
| Raster.AtOnto | HW1/main.cpp:66-70 | every buffer cell i is the pixel `operator()` reads in column i % w of row i / w |
| Raster.Put | HW1/main.cpp:66-70 | writing through the returned reference changes the addressed pixel and no other, and keeps the shape |
| Raster.AddAssign | HW1/main.cpp:72-79 | `+=` is an average: each channel becomes (p + q) / 2, with the receiver's shape |
| Raster.AddAssignIsHalfSum | HW1/main.cpp:72-79 | `+=` equals the copying `+` followed by `* 0.5` |
| Raster.AddAssignBetween | HW1/main.cpp:72-79 | each averaged channel lies between the two channels it averages |
| Raster.AddAssignSelf | HW1/main.cpp:72-79 | `+=` of an image with itself leaves it unchanged |
| Raster.AddAssignBlackWhite | HW1/main.cpp:72-79 | black `+=` white gives 127.5 everywhere, not white |
| Raster.SubAssign | HW1/main.cpp:80-84 | every pixel becomes the clamped difference, so no channel is negative; the shape is kept |
| Raster.Times | HW1/main.cpp:85-91 | the copy has the receiver's shape and every channel is multiplied by the factor |
| Raster.TimesEndpoints | HW1/main.cpp:85-91 | `* 1` is the identity and `* 0` is the all-black image of the same size |
| Raster.Plus | HW1/main.cpp:92-99 | the copy holds the unclamped sum: subtracting the argument's channel gives back the receiver's |
| Raster.Minus | HW1/main.cpp:100-107 | the copying `-` agrees with the in-place `-=` |
| Raster.PlusThenMinus | HW1/main.cpp:92-107 | `-` undoes `+` on an image with non-negative channels |
| Raster.AlphaCompo | HW1/main.cpp:119-126 | each channel is alpha*F + (1 - alpha)*B, with F's shape; alpha = 1 gives F, and alpha = 0 gives B when the shapes agree |
| Raster.AlphaHalfIsAverage | HW1/main.cpp:119-126 | the blend at alpha = 1/2 is the averaging `+=` |
| Istream.ExtractWord | HW1/main.cpp:171 | `>> str` on a stream that is not good changes nothing but sets `failbit`; a successful read gives a non-empty word without whitespace, and a failed one keeps the target |
| Istream.ExtractWordSplits | HW1/main.cpp:213 | a successful `>> str` takes the whole run of non-space bytes after the leading whitespace, and nothing else |
| Istream.ExtractWordOf | HW1/main.cpp:201-207 | a word that whitespace precedes and follows is read back exactly, and the stream stops at the whitespace after it |
| Istream.ExtractInt | HW1/main.cpp:173 | `>> n` on a stream that is not good keeps the target and sets `failbit`; a value it stores lies in the `int` range; a read that does not fail stores a value |
| Istream.ExtractIntOverflow | HW1/main.cpp:173 | a numeral above INT_MAX stores INT_MAX and sets `failbit` |
| Istream.ExtractIntUnderflow | HW1/main.cpp:173 | a negative numeral below INT_MIN stores INT_MIN and sets `failbit` |
| Istream.ExtractIntOf | HW1/main.cpp:173 | after any run of whitespace, `>> n` reads a numeral, with or without a minus sign, whose value fits in an `int`: it stores that value, signed, does not fail, stops at the first byte that is not a digit, and sets `eofbit` exactly when the numeral ends the data |
| Istream.ExtractIntAfterSpace | HW1/main.cpp:173 | leading whitespace does not change what `>> n` stores or where it stops |
| Istream.ExtractUnsignedAt | HW1/main.cpp:173 | an unsigned numeral up to INT_MAX is stored as its value, and the stream stops right after it |
| Istream.ExtractNegativeAt | HW1/main.cpp:173 | a minus sign and a numeral down to INT_MIN store the negated value, and the stream stops right after it |
| Istream.ExtractIntNoDigits | HW1/main.cpp:173 | at a byte that cannot start a number, `>> n` stores 0, extracts nothing and sets `failbit` |
| Istream.ExtractByte | HW1/main.cpp:195 | `>> c` gives a byte that is not whitespace, or fails and keeps the target |
| Istream.ExtractByteSplits | HW1/main.cpp:195 | a successful `>> c` takes the first byte after the leading whitespace |
| Istream.Read | HW1/main.cpp:180 | `read` on a good stream with enough bytes fills the whole buffer with the next bytes and leaves the stream good after them |
| Istream.ReadShort | HW1/main.cpp:180 | a short `read` fills the buffer with what is left, keeps the rest of the buffer as it was, and sets `eofbit` and `failbit` |
| Istream.Ignore | HW1/main.cpp:176 | `ignore(n, delim)` at a `delim` discards just that byte |
| Istream.IgnoreDiscards | HW1/main.cpp:176 | `ignore(n, delim)` on a good stream discards at most n leading bytes, none of them `delim` except possibly the last, never fails, and discards fewer than n only when it has just discarded a `delim` or has reached the end of the data |
| Istream.GetLine | HW1/main.cpp:204 | the line read holds no newline; with no newline left, it is the whole rest and `eofbit` is set; at the end of the data `failbit` is set |
| Istream.GetLineOf | HW1/main.cpp:204 | `getline` returns the bytes before the next newline, whatever they are, and leaves the stream just after it |
| Istream.CString | HW1/main.cpp:172 | `c_str()` as C string functions see it is the longest prefix without a NUL byte |
| Istream.Atoi | HW1/main.cpp:208 | a result of `atoi` lies in the `int` range |
| Istream.AtoiOfNumeral | HW1/main.cpp:208 | `atoi` reads back a numeral whose value fits in an `int` |
| Istream.AtoiOverflow | HW1/main.cpp:208 | `atoi` of a numeral above INT_MAX has no defined result |
| Istream.AtoiAfterSpace | HW1/main.cpp:214 | `atoi` skips leading whitespace |
| Netpbm.EncodeChannel | HW1/main.cpp:149-151 | the written byte is at most 254; for 0 <= v < 255 it is the integer part of v, and anything else, 255 included, is written as 0 |
| Netpbm.EncodePixels | HW1/main.cpp:148-153 | the body holds three bytes per pixel, each at most 254 |
| Netpbm.EncodePixelsAt | HW1/main.cpp:148-153 | bytes 3i, 3i+1 and 3i+2 of the body are the r, g and b of pixel i |
| Netpbm.SavePPM | HW1/main.cpp:138-160 | nothing is written for an empty image, and something always is otherwise; the output is the "P6" header followed by exactly 3*w*h bytes, each at most 254 and each the encoded channel it stands for |
| Netpbm.Identify | HW1/main.cpp:172-239 | the tag chain recognises exactly the four tags P6, P5, P3 and P2 |
| Netpbm.ReadTriples | HW1/main.cpp:177-184 | the P6 pixel loop gives n pixels whose channels are byte levels |
| RoundTrip.ReadTriplesOf | HW1/main.cpp:177-184 | the P6 pixel loop reads any body of 3n bytes as n pixels, pixel i taking bytes 3i, 3i+1 and 3i+2 as they are, whatever follows the body and whatever the buffer held |
| Netpbm.ReadGrayBytes | HW1/main.cpp:191-199 | the P5 pixel loop gives n grey pixels whose channels are byte levels, none of them the code of a whitespace byte, because `>> pix` skips those bytes |
| GrayBytes.ReadGrayBytesOf | HW1/main.cpp:191-198 | the P5 pixel loop reads bytes that are not whitespace back one grey pixel each, whatever follows them |
| GrayBytes.ExtractAfterSpace | HW1/main.cpp:195 | `>> pix` passes over a whitespace byte to the byte after it |
| GrayBytes.ReadGrayBytesSpaced | HW1/main.cpp:191-198 | with a whitespace byte before each pixel byte, the P5 loop still reads the pixel bytes, one per pixel |
| GrayBytes.SpaceByteLost | HW1/main.cpp:195 | a P5 body holding a whitespace byte is never read back as itself |
| Netpbm.Assemble | HW1/main.cpp:174-175 | dimensions that fit an `int` and match the pixel count give exactly that image; any image it gives is well formed |
| Netpbm.ReadBinary | HW1/main.cpp:173-199 | a binary branch gives a well-formed image of byte levels; for P5 it is grey and holds no whitespace level |
| Netpbm.SkipComments | HW1/main.cpp:202-206 | a result, when there is one, is a word that is not a comment; a non-comment word passes through with the stream and `line` untouched (`PlainText.SkipCommentLines` states when the loop stops and when it never ends) |
| Netpbm.ReadWords | HW1/main.cpp:211-215 | n reads of `ifs >> line` give n words |
| Netpbm.LevelsOf | HW1/main.cpp:214 | every word is converted by `atoi` reduced modulo 256, in order, and the loop fails exactly when one conversion overflows |
| PlainText.TriplesOfChannels | HW1/main.cpp:211-218 | grouping the levels of an image three by three, as the P3 loop fills `pix`, gives its pixels back |
| Netpbm.ReadColorWords | HW1/main.cpp:211-219 | the P3 pixel loop gives n pixels of byte levels |
| Netpbm.ReadGrayWords | HW1/main.cpp:232-238 | the P2 pixel loop gives n grey pixels of byte levels |
| Netpbm.PlainHeader | HW1/main.cpp:201-207 | the header returns a first dimension word that is not a comment |
| Netpbm.PlainPixels | HW1/main.cpp:208-238 | the image built has the dimensions stored as `unsigned`, and is well formed |
| Netpbm.ReadPlain | HW1/main.cpp:200-238 | as written, a plain-text branch gives only square images of byte levels, grey for P2 |
| Netpbm.ReadPPM | HW1/main.cpp:162-247 | a file that cannot be opened, or an unknown tag, gives the empty image; every image read is well formed and holds byte levels; P3 and P2 images are square, P5 and P2 images are grey, and P5 images hold no whitespace level |
| RoundTrip.Reread | HW1/main.cpp:149-151 | a pixel survives its three bytes if and only if its channels are integers in 0..254 |
| RoundTrip.ReadTriplesOfBody | HW1/main.cpp:179-184 | the P6 pixel loop reads the encoded body back as the re-read pixels, whatever follows it |
| RoundTrip.ReadHeader | HW1/main.cpp:171-176 | the written header is parsed back as the tag P6, then w and h, and the stream stops at the first body byte |
| RoundTrip.SaveThenReadLossy | HW1/main.cpp:138-184 | reading back what `savePPM` wrote gives the same w and h, each channel truncated and wrapped modulo 255 |
| RoundTrip.SaveThenRead | HW1/main.cpp:145-184 | an image whose channels are integers in 0..254 is read back exactly |
| RoundTrip.WhiteComesBackBlack | HW1/main.cpp:149-151 | a white pixel is saved and read back as black |
| PlainText.ReadPlainCorrected | HW1/main.cpp:200-238 | the plain-text branches with the height taken from the second dimension word give a well-formed image of byte levels |
| PlainText.ReadPPMCorrected | HW1/main.cpp:162-247 | it is `readPPM` on every input except the plain-text branches |
| PlainText.ReadWordsStale | HW1/main.cpp:213 | once the stream has failed, every later `ifs >> line` yields the last word again |
| PlainText.ReadJoined | HW1/main.cpp:211-215 | whitespace-separated words are read back in order, and the stream stops after the last |
| PlainText.LevelsOfSpell | HW1/main.cpp:214 | `atoi` of the decimal numeral of a byte gives the byte back |
| PlainText.ReadColorWordsOf | HW1/main.cpp:211-219 | the P3 pixel loop reads back the pixels of the P3 layout |
| PlainText.HeaderOf | HW1/main.cpp:201-207 | the header numbers are read as the width word and the height word, whatever follows them, and the stream stops at what follows |
| PlainText.ReadP3 | HW1/main.cpp:171-172 | a file whose first word is "P3" goes to the P3 branch |
| PlainText.CommentWord | HW1/main.cpp:201 | at a comment, `ifs >> l1` reads '#' and the comment's first run of non-space bytes, and stops at the rest of its text |
| PlainText.SkipCommentLines | HW1/main.cpp:202-206 | after the rest of one comment line and any number of whole comment lines, the loop stops at the next word when it is not a comment, with `line` holding the last comment line's text after its first word; when the data ends inside the comments, the loop never ends (`None`) |
| PlainText.SkipCommentsLast | HW1/main.cpp:202-206 | after the last comment line, the loop stops at the next word, with `line` holding that line's rest, or never ends when the data ends first |
| PlainText.SkipCommentStep | HW1/main.cpp:204-205 | one turn of the loop: `getline` takes the rest of the line and its newline into `line`, and `ifs >> l1` reads on from the next line |
| PlainText.CommentLinesWord | HW1/main.cpp:205 | at a whole comment line, `ifs >> l1` reads '#' and the text's leading run of non-space bytes, and stops at the rest of the text |
| PlainText.ExtractWordAnyDst | HW1/main.cpp:205 | what `ifs >> l1` reads and where it stops do not depend on what `l1` held; on failure `l1` keeps its value |
| PlainText.CommentSkipped | HW1/main.cpp:202-205 | the comment loop puts the rest of the comment line into `line` and reads the first word of the next line |
| PlainText.HeaderAfterComment | HW1/main.cpp:202-207 | a comment line of any text is discarded: the header reads the same dimension words and stops at the same place as without it, and `line` keeps the comment's text after its first word |
| PlainText.HeaderComment | HW1/main.cpp:201-207 | a comment line before the header numbers leaves both dimension words and the stream as without it, with the comment's text in `line` |
| PlainText.ReadWordsAnyLine | HW1/main.cpp:213 | once the first `ifs >> line` succeeds, what `line` held before does not matter |
| PlainText.PixelsAnyLine | HW1/main.cpp:208-219 | when a pixel word follows the header, the pixel loop does not depend on `line` |
| PlainText.SameHeaderAnyLine | HW1/main.cpp:200-219 | as written, two headers that differ only in `line` give the same image when a pixel word follows |
| PlainText.SameHeaderAnyLineCorrected | HW1/main.cpp:200-219 | the same for the corrected decoder |
| PlainText.ReadCommented | HW1/main.cpp:200-219 | for a P3 file with pixels, a comment line of any text after the tag changes nothing, as written and corrected |
| PlainText.ReadCommentedRoundTrip | HW1/main.cpp:200-219 | the corrected decoder reads back every image from its P3 file with a comment line of any text after the tag |
| PlainText.StaleColorWords | HW1/main.cpp:211-215 | once the stream has failed, the P3 loop fills every pixel with the level of the stale `line` |
| PlainText.TruncatedCommented | HW1/main.cpp:200-219 | a square header with no pixels after it, behind a comment line, reads as pixels all of the level of the comment's text after its first word |
| PlainText.TruncatedPlain | HW1/main.cpp:200-219 | the same file without the comment reads as black pixels |
| PlainText.CommentLeaks | HW1/main.cpp:204-213 | in a file that announces pixels it does not hold, a comment whose text converts to a nonzero level changes the image, as written and corrected |
| PlainText.SevenComment | HW1/main.cpp:214 | the text " 7" after "# " converts to level 7 |
| PlainText.ReadPlainSquare | HW1/main.cpp:200-219 | as written, a square image is read back exactly from its P3 file |
| PlainText.ReadPlainNotSquare | HW1/main.cpp:208 | as written, no image whose width and height differ is read back from its P3 file |
| PlainText.ReadPlainTwoByOne | HW1/main.cpp:208-219 | the 2 x 1 image of levels 1 and 2 comes back 2 x 2, with the missing row filled by the last level repeated |
| PlainText.ReadPlainCorrectedRoundTrip | HW1/main.cpp:200-219 | with the height taken from the second dimension word, every image of byte levels is read back exactly from its P3 file |
| PlainGray.GraysOfLevels | HW1/main.cpp:234-237 | replicating the level of each grey pixel into r, g and b gives the pixel back |
| PlainGray.ReadGrayWordsOf | HW1/main.cpp:232-238 | the P2 pixel loop reads back the pixels of the P2 layout |
| PlainGray.ReadP2 | HW1/main.cpp:171-220 | a file whose first word is "P2" goes to the P2 branch |
| PlainGray.GrayPixelsOf | HW1/main.cpp:228-238 | the P2 pixel loop reads back a grey image of the given dimensions, whatever `line` holds |
| PlainGray.GrayHeaderComment | HW1/main.cpp:221-227 | a comment line before the header numbers of a P2 file leaves both dimension words and the stream as without it |
| PlainGray.ReadGrayCommented | HW1/main.cpp:220-238 | for a P2 file with pixels, a comment line of any text after the tag changes nothing, as written and corrected |
| PlainGray.ReadGrayCommentedRoundTrip | HW1/main.cpp:220-238 | the corrected decoder reads back every grey image from its P2 file with a comment line of any text after the tag |
| PlainGray.ReadGraySquare | HW1/main.cpp:220-238 | as written, a square grey image is read back exactly from its P2 file |
| PlainGray.ReadGrayNotSquare | HW1/main.cpp:228 | as written, no image whose width and height differ is read back from its P2 file |
| PlainGray.ReadGrayCorrectedRoundTrip | HW1/main.cpp:220-238 | with the height taken from the second dimension word, every grey image of byte levels is read back exactly from its P2 file |

## Left out

- `gammacorrect` (HW1/main.cpp:108-118): it is `pow` on floats, with nothing to prove beyond the shape.
- `main` (HW1/main.cpp:249-281): a driver with fixed file names.
- Floating point: channels are exact reals, so no rounding is modelled in `+=`, `*`, the blend or the conversions.
- The copy and move constructors, move assignment, `operator[]` and the destructor (HW1/main.cpp:39-65, 128-130): images are values, so copying and moving are built in.
- File opening and closing, and the `stderr` and `stdout` messages (HW1/main.cpp:141-144, 154-159, 164-168, 186, 240-244). An unopenable input file is the input `None` of `ReadPPM`. `savePPM`'s output file is assumed to open.
- Allocation failure in `new[]` is not modelled.
- Raster.Sized requires w*h <= 2^31 - 1, the bound under which the operators' signed loops visit every pixel. The C++ constructor itself loops with an `unsigned` index.
- Raster.AddAssign requires that the argument has at least as many pixels as the receiver. The C++ reads past a shorter argument's buffer, which is undefined.
- Raster.SubAssign, likewise.
- Raster.Plus, likewise.
- Raster.Minus, likewise.
- Raster.AlphaCompo, likewise, for the background image.
- Netpbm.EncodeChannel requires -1 < v < 256. Converting any other float to `unsigned char` is undefined behaviour, so out-of-range channels are not given a byte.
- Istream.Ignore follows the C++ standard's wording of `ignore(n, delim)`: it stops after n bytes without looking at the next one. Library releases that differ from that wording at the n-th byte are not modelled.
- Netpbm.PlainPixels gives `None` for a plain-text image of more than 2^31 - 1 pixels, and for one whose `unsigned` product w*h wraps around. The C++ builds such an image, but it breaks the invariant every operator relies on, so the model does not represent it.
- Netpbm.ReadBinary gives `None` when both dimensions read are negative. The C++ then stores them as huge `unsigned` values and builds an image that breaks the same invariant. (A negative or overflowing product is undefined or throws an exception that escapes `readPPM`, so `None` is exact there.)
- Netpbm.ReadGrayBytes is tied to the bytes it reads only for bodies with no whitespace byte between the pixel bytes, and for bodies with exactly one before each (`GrayBytes.ReadGrayBytesOf`, `GrayBytes.ReadGrayBytesSpaced`). No whole-file P5 round trip is stated, because `savePPM` never writes P5.
- GrayBytes.ReadGrayBytesSpaced states one whitespace byte before each pixel byte. Longer runs are skipped the same way, but that is not stated.
- PlainText.ReadCommented requires the file to hold at least one pixel. With none, the comment's text can leak into a file that announces pixels it lacks (`PlainText.CommentLeaks`).
- PlainText.ReadCommented covers one comment line right after the tag, whose text holds no newline. Several comment lines are stated by `PlainText.SkipCommentLines` at the level of the comment loop, not of the whole file.
- PlainText.ReadCommentedRoundTrip has the same one-comment scope.
- PlainGray.ReadGrayCommented has the same scope as `PlainText.ReadCommented`.
- PlainGray.ReadGrayCommentedRoundTrip has the same one-comment scope.

## Findings

| source | as written | input that shows it | evidently intended | confidence | as-written member | corrected member |
|---|---|---|---|---|---|---|
| HW1/main.cpp:208 | `img.w = atoi(l1.c_str()); img.h = atoi(l1.c_str());`: the height is taken from the width word, and the height word `l2` is read and ignored | the 2 x 1 image of levels 1 and 2 written as a P3 file is read back 2 x 2, as [1, 2, 2, 2]; any image with w != h fails to come back | `img.h = atoi(l2.c_str())`, so every P3 file is read back with its own dimensions | high; not executed | PlainText.ReadPlainNotSquare | PlainText.ReadPlainCorrectedRoundTrip |
| HW1/main.cpp:228 | the same line in the P2 branch: `img.h = atoi(l1.c_str())` | any grey image with w != h, written as a P2 file, does not come back | `img.h = atoi(l2.c_str())` | high; not executed | PlainGray.ReadGrayNotSquare | PlainGray.ReadGrayCorrectedRoundTrip |

=== FILE: graybytes.dfy ===
/** The binary grey (P5) pixel loop of `readPPM` against the bytes it reads:
    `ifs >> pix` into an `unsigned char` skips whitespace first, so pixel i is
    the i-th byte that is not whitespace, and a pixel whose byte is whitespace
    cannot be read at all. */
module GrayBytes {
  import opened Native
  import opened Optional
  import opened Pixel
  import opened Istream
  import opened Netpbm

  /** The bytes of `bs`, each preceded by its own separator byte. */
  function Interleave(seps: seq<byte>, bs: seq<byte>): (s: seq<byte>)
    requires |seps| == |bs|
    ensures |s| == 2 * |bs|
  {
    if bs == [] then [] else [seps[0], bs[0]] + Interleave(seps[1..], bs[1..])
  }

  lemma GraysCons(bs: seq<byte>)
    requires bs != []
    ensures Grays(bs) == [FromBytes(bs[0], bs[0], bs[0])] + Grays(bs[1..])
  {
  }

  /** The P5 loop reads bytes that are not whitespace back one pixel each,
      whatever follows them and whatever `pix` held. */
  lemma {:induction false} ReadGrayBytesOf(bs: seq<byte>, tail: seq<byte>, pix: Option<byte>)
    requires Solid(bs)
    ensures ReadGrayBytes(Stream(bs + tail, false, false), pix, |bs|) == Some(Grays(bs))
    decreases |bs|
  {
    if bs != [] {
      var s := bs + tail;
      assert SkipSpace(s) == s;
      assert s[1..] == bs[1..] + tail;
      ReadGrayBytesOf(bs[1..], tail, Some(bs[0]));
      GraysCons(bs);
    }
  }

  /** A whitespace byte before each pixel byte is skipped: the loop still reads
      the pixel bytes, one per pixel. */
  lemma {:induction false} ReadGrayBytesSpaced(seps: seq<byte>, bs: seq<byte>, tail: seq<byte>,
                                               pix: Option<byte>)
    requires |seps| == |bs| && Solid(bs)
    requires forall i :: 0 <= i < |seps| ==> IsSpace(seps[i])
    ensures ReadGrayBytes(Stream(Interleave(seps, bs) + tail, false, false), pix, |bs|)
            == Some(Grays(bs))
    decreases |bs|
  {
    if bs != [] {
      var rest := Interleave(seps[1..], bs[1..]) + tail;
      assert ExtractByte(Stream(Interleave(seps, bs) + tail, false, false), pix)
             == (Some(bs[0]), Stream(rest, false, false)) by {
        InterleaveCons(seps, bs, tail);
        ExtractAfterSpace(seps[0], bs[0], rest, pix);
      }
      ReadGrayBytesSpaced(seps[1..], bs[1..], tail, Some(bs[0]));
      GraysCons(bs);
    }
  }

  lemma InterleaveCons(seps: seq<byte>, bs: seq<byte>, tail: seq<byte>)
    requires |seps| == |bs| && bs != []
    ensures Interleave(seps, bs) + tail == [seps[0], bs[0]] + (Interleave(seps[1..], bs[1..]) + tail)
  {
  }

  /** `>> pix` passes over one whitespace byte to the byte after it. */
  lemma ExtractAfterSpace(sep: byte, b: byte, rest: seq<byte>, pix: Option<byte>)
    requires IsSpace(sep) && !IsSpace(b)
    ensures ExtractByte(Stream([sep, b] + rest, false, false), pix) == (Some(b), Stream(rest, false, false))
  {
    var s := [sep, b] + rest;
    assert s[1..] == [b] + rest;
    assert SkipSpace(s) == [b] + rest;
    assert ([b] + rest)[1..] == rest;
  }

  /** A P5 body holding a whitespace byte is never read back as itself. */
  lemma SpaceByteLost(bs: seq<byte>, tail: seq<byte>, pix: Option<byte>, k: nat)
    requires k < |bs| && IsSpace(bs[k])
    requires pix.None? || !IsSpace(pix.value)
    ensures ReadGrayBytes(Stream(bs + tail, false, false), pix, |bs|) != Some(Grays(bs))
  {
    assert IsSpaceLevel(Grays(bs)[k].r);
  }
}

=== FILE: graytext.dfy ===
/** The plain-text grey (P2) branch of `readPPM` set against the file layout it
    is meant to read: the tag, the width, the height, the maximum level 255, then
    one decimal level per pixel, each on its own line.

    The P2 branch shares the header and the comment loop with P3, and with them
    the height taken from the width word: as written it reads such a file back
    exactly only when the image is square, and the corrected decoder reads every
    such file back. */
module PlainGray {
  import opened Native
  import opened Optional
  import opened Pixel
  import opened Raster
  import opened Istream
  import opened Netpbm
  import opened PlainText

  // ---------------------------------------------------------------------------
  // The grey layout

  /** The level of each grey pixel, in row-major order. */
  function GrayLevels(ps: seq<Rgb>): (vs: seq<byte>)
    requires AllLevels(ps)
    ensures |vs| == |ps|
    ensures forall i :: 0 <= i < |ps| ==> vs[i] as real == ps[i].r
  {
    seq(|ps|, i requires 0 <= i < |ps| => LevelValue(ps[i].r))
  }

  /** A line break before each level. */
  function Lines(n: nat): (seps: seq<byte>)
    ensures |seps| == n
    ensures forall j :: 0 <= j < n ==> seps[j] == NewLine
  {
    seq(n, _ => NewLine)
  }

  /** The pixel levels of a grey plain-text file. */
  function GrayBody(ps: seq<Rgb>): seq<byte>
    requires AllLevels(ps)
  {
    Joined(Lines(|ps|), Spell(GrayLevels(ps)))
  }

  /** The grey file after its tag. */
  function GrayContents(img: Image): seq<byte>
    requires AllLevels(img.pixels)
  {
    Joined(HeaderSeps, HeaderWords(img)) + (GrayBody(img.pixels) + [NewLine])
  }

  /** The grey plain-text file of an image: "P2", then w, h and 255, then one
      level per pixel, and a final line break. */
  function GrayFile(img: Image): seq<byte>
    requires AllLevels(img.pixels)
  {
    Tag(P2) + GrayContents(img)
  }

  // ---------------------------------------------------------------------------
  // Reading the layout back

  lemma GraySpaced(ps: seq<Rgb>)
    requires AllLevels(ps)
    ensures Spaced(Lines(|ps|), Spell(GrayLevels(ps)))
  {
    var vs := GrayLevels(ps);
    forall i | 0 <= i < |vs|
      ensures IsWord(Spell(vs)[i])
    {
      NumeralIsWord(vs[i]);
    }
  }

  /** Replicating the levels of a grey image gives the image back. */
  lemma GraysOfLevels(ps: seq<Rgb>)
    requires AllLevels(ps) && AllGray(ps)
    ensures Grays(GrayLevels(ps)) == ps
  {
    var vs := GrayLevels(ps);
    forall i | 0 <= i < |ps|
      ensures Grays(vs)[i] == ps[i]
    {
      assert IsGray(ps[i]);
    }
  }

  /** The P2 pixel loop reads the grey body of `ps` back as `ps`. */
  lemma ReadGrayWordsOf(ps: seq<Rgb>, tail: seq<byte>, line: seq<byte>)
    requires AllLevels(ps) && AllGray(ps)
    requires tail != [] && IsSpace(tail[0])
    ensures ReadGrayWords(Stream(GrayBody(ps) + tail, false, false), line, |ps|) == Some(ps)
  {
    var ws := Spell(GrayLevels(ps));
    assert ReadWords(Stream(GrayBody(ps) + tail, false, false), line, |ps|).0 == ws by {
      GraySpaced(ps);
      ReadJoined(Lines(|ps|), ws, tail, line, 0, |ps|);
      assert ws + [] == ws;
    }
    LevelsOfSpell(GrayLevels(ps));
    GraysOfLevels(ps);
  }

  /** The grey body followed by a line break starts with whitespace. */
  lemma GrayBodyThenSpace(ps: seq<Rgb>)
    requires AllLevels(ps)
    ensures GrayBody(ps) + [NewLine] != [] && IsSpace((GrayBody(ps) + [NewLine])[0])
  {
    GraySpaced(ps);
    JoinedThenSpace(Lines(|ps|), Spell(GrayLevels(ps)), [NewLine]);
  }

  /** The contents of a grey file start with whitespace. */
  lemma GrayContentsStart(img: Image)
    requires AllLevels(img.pixels)
    ensures GrayContents(img) != [] && GrayContents(img)[0] == NewLine
  {
    JoinedCons(HeaderSeps, HeaderWords(img), GrayBody(img.pixels) + [NewLine]);
  }

  /** The P2 pixel loop of a grey file, once the two dimensions are known,
      whatever `line` holds. */
  lemma GrayPixelsOf(img: Image, w: nat, h: nat, line: seq<byte>)
    requires AllLevels(img.pixels) && AllGray(img.pixels)
    requires w <= IntMax && h <= IntMax && w * h == |img.pixels|
    requires Valid(Image(w, h, img.pixels))
    ensures PlainPixels(w, h, Stream(GrayBody(img.pixels) + [NewLine], false, false), line, true)
            == Some(Image(w, h, img.pixels))
  {
    ReadGrayWordsOf(img.pixels, [NewLine], line);
    assert Unsigned(w) == w && Unsigned(h) == h && Unsigned(w * h) == w * h;
  }

  /** A file whose first word is "P2" goes to the P2 branch. */
  lemma ReadP2(rest: seq<byte>)
    requires rest != [] && IsSpace(rest[0])
    ensures ReadPPM(Some(Tag(P2) + rest)) == ReadPlain(Stream(rest, false, false), true)
    ensures ReadPPMCorrected(Some(Tag(P2) + rest)) == ReadPlainCorrected(Stream(rest, false, false), true)
  {
    TagThenSpace(P2, rest);
  }

  /** As written, the P2 branch reads both dimensions from the width. */
  lemma ReadGrayOfFile(img: Image)
    requires AllLevels(img.pixels) && img.w <= IntMax
    ensures ReadPPM(Some(GrayFile(img)))
            == PlainPixels(img.w, img.w, Stream(GrayBody(img.pixels) + [NewLine], false, false), [], true)
  {
    GrayContentsStart(img);
    ReadP2(GrayContents(img));
    GrayBodyThenSpace(img.pixels);
    HeaderOf(img, GrayBody(img.pixels) + [NewLine]);
    AtoiOfDecimal(img.w);
  }

  /** The corrected P2 branch reads the width and the height. */
  lemma ReadGrayCorrectedOfFile(img: Image)
    requires AllLevels(img.pixels) && img.w <= IntMax && img.h <= IntMax
    ensures ReadPPMCorrected(Some(GrayFile(img)))
            == PlainPixels(img.w, img.h, Stream(GrayBody(img.pixels) + [NewLine], false, false), [], true)
  {
    GrayContentsStart(img);
    ReadP2(GrayContents(img));
    GrayBodyThenSpace(img.pixels);
    HeaderOf(img, GrayBody(img.pixels) + [NewLine]);
    AtoiOfDecimal(img.w);
    AtoiOfDecimal(img.h);
  }

  // ---------------------------------------------------------------------------
  // The finding, for P2

  /** As written, a square grey image is read back exactly from its P2 file. */
  lemma ReadGraySquare(img: Image)
    requires Valid(img) && AllLevels(img.pixels) && AllGray(img.pixels)
    requires img.w == img.h && img.w <= IntMax
    ensures ReadPPM(Some(GrayFile(img))) == Some(img)
  {
    ReadGrayOfFile(img);
    GrayPixelsOf(img, img.w, img.h, []);
  }

  /** As written, no grey image whose width and height differ survives its own
      P2 file. */
  lemma ReadGrayNotSquare(img: Image)
    requires Valid(img) && AllLevels(img.pixels)
    requires img.w != img.h
    ensures ReadPPM(Some(GrayFile(img))) != Some(img)
  {
    GrayContentsStart(img);
    TagThenSpace(P2, GrayContents(img));
  }

  /** The corrected decoder reads back every grey image from its P2 file. */
  lemma ReadGrayCorrectedRoundTrip(img: Image)
    requires Valid(img) && AllLevels(img.pixels) && AllGray(img.pixels)
    requires img.w <= IntMax && img.h <= IntMax
    ensures ReadPPMCorrected(Some(GrayFile(img))) == Some(img)
  {
    ReadGrayCorrectedOfFile(img);
    GrayPixelsOf(img, img.w, img.h, []);
  }

  // ---------------------------------------------------------------------------
  // Comments

  /** A grey file with a comment line after its tag: '#', then the comment's
      text `c`, then the line break that starts the header. */
  function GrayCommentedFile(img: Image, c: seq<byte>): seq<byte>
    requires AllLevels(img.pixels)
  {
    Tag(P2) + ([NewLine, Hash] + c + GrayContents(img))
  }

  /** A pixel word follows the header of a grey file with pixels. */
  lemma GrayBodyStartsWord(ps: seq<Rgb>)
    requires AllLevels(ps) && ps != []
    ensures Sentry(Stream(GrayBody(ps) + [NewLine], false, false)).0
  {
    GraySpaced(ps);
    ExtractFirst(Lines(|ps|), Spell(GrayLevels(ps)), [NewLine], []);
  }

  /** The header of a commented grey file: both dimension words, the comment's
      text after its first word in `line`, and the stream at the first pixel. */
  lemma GrayHeaderComment(img: Image, c: seq<byte>)
    requires AllLevels(img.pixels)
    requires forall i :: 0 <= i < |c| ==> c[i] != NewLine
    ensures PlainHeader(Stream([NewLine, Hash] + c + GrayContents(img), false, false))
            == Some((Decimal(img.w), Decimal(img.h), c[WordLength(c)..],
                     Stream(GrayBody(img.pixels) + [NewLine], false, false)))
  {
    GrayBodyThenSpace(img.pixels);
    HeaderComment(img, c, GrayBody(img.pixels) + [NewLine]);
  }

  /** As written and corrected, a comment line after the tag of a P2 file with
      pixels changes nothing, whatever the comment's text. */
  lemma ReadGrayCommented(img: Image, c: seq<byte>)
    requires AllLevels(img.pixels) && img.pixels != []
    requires forall i :: 0 <= i < |c| ==> c[i] != NewLine
    ensures ReadPPM(Some(GrayCommentedFile(img, c))) == ReadPPM(Some(GrayFile(img)))
    ensures ReadPPMCorrected(Some(GrayCommentedFile(img, c))) == ReadPPMCorrected(Some(GrayFile(img)))
  {
    var rest := GrayBody(img.pixels) + [NewLine];
    var commented := [NewLine, Hash] + c + GrayContents(img);
    ReadP2(commented);
    GrayContentsStart(img);
    ReadP2(GrayContents(img));
    GrayBodyThenSpace(img.pixels);
    GrayBodyStartsWord(img.pixels);
    GrayHeaderComment(img, c);
    HeaderOf(img, rest);
    SameHeaderAnyLine(Stream(commented, false, false), Stream(GrayContents(img), false, false),
                      Decimal(img.w), Decimal(img.h), c[WordLength(c)..], [],
                      Stream(rest, false, false), true);
    SameHeaderAnyLineCorrected(Stream(commented, false, false), Stream(GrayContents(img), false, false),
                               Decimal(img.w), Decimal(img.h), c[WordLength(c)..], [],
                               Stream(rest, false, false), true);
  }

  /** The corrected decoder reads back every grey image from its P2 file with a
      comment line after the tag, whatever the comment's text. */
  lemma ReadGrayCommentedRoundTrip(img: Image, c: seq<byte>)
    requires Valid(img) && AllLevels(img.pixels) && AllGray(img.pixels)
    requires img.w <= IntMax && img.h <= IntMax
    requires forall i :: 0 <= i < |c| ==> c[i] != NewLine
    ensures ReadPPMCorrected(Some(GrayCommentedFile(img, c))) == Some(img)
  {
    ReadP2([NewLine, Hash] + c + GrayContents(img));
    GrayHeaderComment(img, c);
    AtoiOfDecimal(img.w);
    AtoiOfDecimal(img.h);
    GrayPixelsOf(img, img.w, img.h, c[WordLength(c)..]);
  }
}

=== FILE: istream.dfy ===
/** The part of C++ `std::ifstream` that `readPPM` uses, following the extraction
    rules of the C++ standard library: the state is the bytes not yet extracted
    plus the `eofbit` and `failbit` flags. Every extraction first builds a
    `sentry`; once the stream is not good, extractions change nothing but set
    `failbit`, and the target variable keeps its previous value. */
module Istream {
  import opened Native
  import opened Optional

  datatype Stream = Stream(rest: seq<byte>, eof: bool, fail: bool)

  predicate Good(st: Stream) {
    !st.eof && !st.fail
  }

  /** A freshly opened file. */
  function Open(data: seq<byte>): Stream {
    Stream(data, false, false)
  }

  /** The stream after a failed sentry: nothing extracted, `failbit` set. */
  function Failed(st: Stream): Stream {
    st.(fail := true)
  }

  /** No byte of `s` is whitespace. */
  predicate Solid(s: seq<byte>) {
    forall i :: 0 <= i < |s| ==> !IsSpace(s[i])
  }

  /** The leading whitespace of `s` dropped. */
  function SkipSpace(s: seq<byte>): (t: seq<byte>)
    ensures |t| <= |s|
    ensures t == [] || !IsSpace(t[0])
    ensures forall i :: 0 <= i < |s| - |t| ==> IsSpace(s[i])
  {
    if |s| > 0 && IsSpace(s[0]) then SkipSpace(s[1..]) else s
  }

  /** The length of the run of non-space bytes that starts `s`. */
  function WordLength(s: seq<byte>): (n: nat)
    ensures n <= |s|
    ensures forall i :: 0 <= i < n ==> !IsSpace(s[i])
    ensures n < |s| ==> IsSpace(s[n])
  {
    if |s| > 0 && !IsSpace(s[0]) then 1 + WordLength(s[1..]) else 0
  }

  /** The sentry of a formatted extraction: skips whitespace and succeeds when a
      byte remains; reaching the end sets `eofbit` and `failbit`. */
  function Sentry(st: Stream): (r: (bool, Stream))
    ensures |r.1.rest| <= |st.rest|
    ensures r.0 ==> Good(r.1) && r.1.rest != [] && !IsSpace(r.1.rest[0])
    ensures r.0 ==> r.1.rest == SkipSpace(st.rest)
    ensures !r.0 ==> r.1.fail
  {
    if !Good(st) then (false, Failed(st))
    else
      var t := SkipSpace(st.rest);
      if t == [] then (false, Stream(t, true, true)) else (true, st.(rest := t))
  }

  /** `is >> str` for a `std::string`: the next whitespace-delimited word. */
  function ExtractWord(st: Stream, dst: seq<byte>): (r: (seq<byte>, Stream))
    ensures |r.1.rest| <= |st.rest|
    ensures !Good(st) ==> r == (dst, Failed(st))
    ensures !r.1.fail ==> r.0 != [] && forall i :: 0 <= i < |r.0| ==> !IsSpace(r.0[i])
    ensures r.1.fail ==> r.0 == dst
  {
    var (ok, s) := Sentry(st);
    if !ok then (dst, s)
    else
      var n := WordLength(s.rest);
      (s.rest[..n], Stream(s.rest[n..], n == |s.rest|, false))
  }

  /** `is >> n` for an `int`: an optional sign and a run of decimal digits. With no
      digits the target becomes 0; a value outside `int` is stored as INT_MAX or
      INT_MIN; both set `failbit`. */
  function ExtractInt(st: Stream, dst: Option<int>): (r: (Option<int>, Stream))
    ensures |r.1.rest| <= |st.rest|
    ensures !Good(st) ==> r == (dst, Failed(st))
    ensures r.0 != dst ==> r.0.Some? && IntMin <= r.0.value <= IntMax
    ensures !r.1.fail ==> r.0.Some?
  {
    var (ok, s) := Sentry(st);
    if !ok then (dst, s)
    else
      var t := s.rest;
      var signed := t[0] == 43 || t[0] == 45;
      var u := if signed then t[1..] else t;
      var n := DigitRun(u);
      var atEnd := n == |u|;
      if n == 0 then (Some(0), Stream(u, atEnd, true))
      else
        var magnitude: int := DigitsValue(u[..n]);
        var v: int := if t[0] == 45 then -magnitude else magnitude;
        if v > IntMax then (Some(IntMax), Stream(u[n..], atEnd, true))
        else if v < IntMin then (Some(IntMin), Stream(u[n..], atEnd, true))
        else (Some(v), Stream(u[n..], atEnd, false))
  }

  /** `is >> c` for an `unsigned char`: the next non-space byte. */
  function ExtractByte(st: Stream, dst: Option<byte>): (r: (Option<byte>, Stream))
    ensures |r.1.rest| <= |st.rest|
    ensures !Good(st) ==> r == (dst, Failed(st))
    ensures !r.1.fail ==> r.0.Some? && !IsSpace(r.0.value)
    ensures r.1.fail ==> r.0 == dst
  {
    var (ok, s) := Sentry(st);
    if !ok then (dst, s) else (Some(s.rest[0]), s.(rest := s.rest[1..]))
  }

  /** `is.read(buf, |buf|)`: unformatted, no whitespace skipping. A short read
      fills a prefix of the buffer, keeps the rest as it was, and sets `eofbit`
      and `failbit`. Buffer cells that were never written are `None`. */
  function Read(st: Stream, buf: seq<Option<byte>>): (r: (seq<Option<byte>>, Stream))
    ensures |r.0| == |buf|
    ensures !Good(st) ==> r == (buf, Failed(st))
    ensures Good(st) && |buf| <= |st.rest| ==>
              r.1 == Stream(st.rest[|buf|..], false, false)
              && forall i :: 0 <= i < |buf| ==> r.0[i] == Some(st.rest[i])
  {
    if !Good(st) then (buf, Failed(st))
    else
      var k := if |st.rest| < |buf| then |st.rest| else |buf|;
      (seq(|buf|, i requires 0 <= i < |buf| => if i < k then Some(st.rest[i]) else buf[i]),
       Stream(st.rest[k..], k < |buf|, k < |buf|))
  }

  /** `is.ignore(n, delim)`: discards up to `n` bytes, stopping after the first
      `delim`; hitting the end first sets `eofbit`. */
  function Ignore(st: Stream, n: nat, delim: byte): (r: Stream)
    ensures |r.rest| <= |st.rest|
    ensures !Good(st) ==> r == Failed(st)
    ensures Good(st) && n > 0 && st.rest != [] && st.rest[0] == delim ==>
              r == Stream(st.rest[1..], false, false)
    decreases n
  {
    if !Good(st) then Failed(st)
    else if n == 0 then st
    else if st.rest == [] then st.(eof := true)
    else if st.rest[0] == delim then st.(rest := st.rest[1..])
    else Ignore(st.(rest := st.rest[1..]), n - 1, delim)
  }

  /** The index of the first newline in `s`, or |s| when there is none. */
  function LineLength(s: seq<byte>): (n: nat)
    ensures n <= |s|
    ensures forall i :: 0 <= i < n ==> s[i] != 10
    ensures n < |s| ==> s[n] == 10
  {
    if |s| > 0 && s[0] != 10 then 1 + LineLength(s[1..]) else 0
  }

  /** `std::getline(is, str)`: the bytes up to the next newline, which is
      discarded; hitting the end sets `eofbit`, and extracting nothing at all sets
      `failbit`. */
  function GetLine(st: Stream, dst: seq<byte>): (r: (seq<byte>, Stream))
    ensures |r.1.rest| <= |st.rest|
    ensures !Good(st) ==> r == (dst, Failed(st))
    ensures Good(st) && st.rest != [] ==> |r.1.rest| < |st.rest|
    ensures Good(st) && st.rest == [] ==> r.1.fail
    ensures Good(st) ==> forall i :: 0 <= i < |r.0| ==> r.0[i] != 10
    ensures Good(st) && st.rest != [] && (forall i :: 0 <= i < |st.rest| ==> st.rest[i] != 10) ==>
              r == (st.rest, Stream([], true, false))
  {
    if !Good(st) then (dst, Failed(st))
    else
      var n := LineLength(st.rest);
      if n < |st.rest| then (st.rest[..n], st.(rest := st.rest[n + 1..]))
      else (st.rest, Stream([], true, n == 0))
  }

  /** `str.c_str()` as the C string functions see it: cut at the first NUL byte. */
  function CString(s: seq<byte>): (c: seq<byte>)
    ensures |c| <= |s| && c == s[..|c|]
    ensures forall i :: 0 <= i < |c| ==> c[i] != 0
    ensures |c| < |s| ==> s[|c|] == 0
  {
    if |s| > 0 && s[0] != 0 then [s[0]] + CString(s[1..]) else []
  }

  /** C `atoi`: leading whitespace, an optional sign, then digits; no digits gives
      0. A value outside `int` is undefined behaviour, here `None`. */
  function Atoi(s: seq<byte>): (r: Option<int>)
    ensures r.Some? ==> IntMin <= r.value <= IntMax
  {
    var t := SkipSpace(s);
    var signed := t != [] && (t[0] == 43 || t[0] == 45);
    var u := if signed then t[1..] else t;
    var n := DigitRun(u);
    var magnitude: int := DigitsValue(u[..n]);
    var v: int := if signed && t[0] == 45 then -magnitude else magnitude;
    if IntMin <= v <= IntMax then Some(v) else None
  }

  /** `atoi` reads back a numeral whose value fits in an `int`. */
  lemma AtoiOfNumeral(ds: seq<byte>)
    requires AllDigits(ds) && |ds| > 0 && DigitsValue(ds) <= IntMax
    ensures Atoi(ds) == Some(DigitsValue(ds))
  {
    DigitRunOfNumeral(ds, []);
    assert ds + [] == ds;
  }

  /** A successful `>> str` takes the whole run of non-space bytes after the
      leading whitespace, and nothing else. */
  lemma ExtractWordSplits(st: Stream, dst: seq<byte>)
    ensures var (word, s) := ExtractWord(st, dst);
            !s.fail ==> SkipSpace(st.rest) == word + s.rest && (s.rest == [] || IsSpace(s.rest[0]))
  {
    var t := SkipSpace(st.rest);
    var n := WordLength(t);
    assert t == t[..n] + t[n..];
  }

  /** A successful `>> c` takes the first byte after the leading whitespace. */
  lemma ExtractByteSplits(st: Stream, dst: Option<byte>)
    ensures var (c, s) := ExtractByte(st, dst);
            !s.fail ==> SkipSpace(st.rest) == [c.value] + s.rest
  {
  }

  /** A short `read` fills the buffer with what is left, keeps the rest of the
      buffer as it was, and sets `eofbit` and `failbit`. */
  lemma ReadShort(st: Stream, buf: seq<Option<byte>>)
    requires Good(st) && |st.rest| < |buf|
    ensures var (got, s) := Read(st, buf);
            && s == Stream([], true, true)
            && (forall i :: 0 <= i < |st.rest| ==> got[i] == Some(st.rest[i]))
            && (forall i :: |st.rest| <= i < |buf| ==> got[i] == buf[i])
  {
  }

  /** `ignore(n, delim)` on a good stream discards at most n bytes, in order,
      and none of them is `delim` except possibly the last; it discards fewer
      than n only when it stops after a `delim` or at the end of the data, and
      it never fails. */
  lemma {:induction false} IgnoreDiscards(st: Stream, n: nat, delim: byte)
    requires Good(st)
    ensures var r := Ignore(st, n, delim);
            var d := Discarded(st, n, delim);
            && !r.fail && d <= n && r.rest == st.rest[d..]
            && (r.eof ==> r.rest == [])
            && (d < n ==> (r.eof && r.rest == []) || (0 < d && st.rest[d - 1] == delim))
    ensures forall i :: 0 <= i < Discarded(st, n, delim) - 1 ==> st.rest[i] != delim
  {
    IgnoreSuffix(st, n, delim);
    IgnoreStops(st, n, delim);
  }

  /** How many bytes `ignore(n, delim)` discards. */
  function Discarded(st: Stream, n: nat, delim: byte): (d: nat)
    ensures d <= |st.rest|
  {
    |st.rest| - |Ignore(st, n, delim).rest|
  }

  /** What `ignore(n, delim)` leaves is what follows the bytes it discards. */
  lemma {:induction false} IgnoreSuffix(st: Stream, n: nat, delim: byte)
    requires Good(st)
    ensures var r := Ignore(st, n, delim);
            var d := |st.rest| - |r.rest|;
            && !r.fail && d <= n && r.rest == st.rest[d..]
            && (forall i :: 0 <= i < d - 1 ==> st.rest[i] != delim)
            && (r.eof ==> r.rest == [])
    decreases n
  {
    if n > 0 && st.rest != [] && st.rest[0] != delim {
      var next := st.(rest := st.rest[1..]);
      IgnoreSuffix(next, n - 1, delim);
      var r := Ignore(next, n - 1, delim);
      var d := |next.rest| - |r.rest|;
      assert r.rest == st.rest[1..][d..] == st.rest[d + 1..];
    }
  }

  /** `ignore(n, delim)` discards fewer than n bytes only when it reaches the end
      of the data or has just discarded a `delim`. */
  lemma {:induction false} IgnoreStops(st: Stream, n: nat, delim: byte)
    requires Good(st)
    ensures var r := Ignore(st, n, delim);
            var d := |st.rest| - |r.rest|;
            d < n ==> (r.eof && r.rest == []) || (0 < d <= |st.rest| && st.rest[d - 1] == delim)
    decreases n
  {
    if n > 0 && st.rest != [] && st.rest[0] != delim {
      var next := st.(rest := st.rest[1..]);
      IgnoreStops(next, n - 1, delim);
      var r := Ignore(next, n - 1, delim);
      assert Ignore(st, n, delim) == r;
      var d := |next.rest| - |r.rest|;
      assert d > 0 ==> next.rest[d - 1] == st.rest[d];
    }
  }

  /** `>> n` stores INT_MAX and sets `failbit` for a numeral above it. */
  lemma ExtractIntOverflow(ds: seq<byte>, tail: seq<byte>, dst: Option<int>)
    requires AllDigits(ds) && DigitsValue(ds) > IntMax
    requires tail != [] && !IsDigit(tail[0])
    ensures ExtractInt(Stream(ds + tail, false, false), dst) == (Some(IntMax), Stream(tail, false, true))
  {
    assert (ds + tail)[0] == ds[0];
    DigitRunOfNumeral(ds, tail);
    assert (ds + tail)[|ds|..] == tail;
  }

  /** The value of a numeral, negated when it carries a minus sign. */
  function SignedValue(neg: bool, ds: seq<byte>): int
    requires AllDigits(ds)
  {
    if neg then -(DigitsValue(ds) as int) else DigitsValue(ds)
  }

  /** `>> n` after any run of whitespace reads a numeral, with or without a minus
      sign, whose value fits in an `int`: it stores that value and stops at the
      first byte that is not a digit, setting `eofbit` when the numeral ends the
      data. */
  lemma ExtractIntOf(lead: seq<byte>, neg: bool, ds: seq<byte>, tail: seq<byte>, dst: Option<int>)
    requires forall i :: 0 <= i < |lead| ==> IsSpace(lead[i])
    requires ds != [] && AllDigits(ds)
    requires IntMin <= SignedValue(neg, ds) <= IntMax
    requires tail == [] || !IsDigit(tail[0])
    ensures ExtractInt(Stream(lead + ((if neg then [45] else []) + ds) + tail, false, false), dst)
            == (Some(SignedValue(neg, ds)), Stream(tail, tail == [], false))
  {
    var num := (if neg then [45] else []) + ds;
    assert lead + num + tail == lead + (num + tail);
    assert (num + tail)[0] == num[0];
    ExtractIntAfterSpace(lead, num + tail, dst);
    ExtractIntAt(neg, ds, tail, dst);
  }

  /** `>> n` skips leading whitespace. */
  lemma ExtractIntAfterSpace(lead: seq<byte>, s: seq<byte>, dst: Option<int>)
    requires forall i :: 0 <= i < |lead| ==> IsSpace(lead[i])
    requires s != [] && !IsSpace(s[0])
    ensures ExtractInt(Stream(lead + s, false, false), dst) == ExtractInt(Stream(s, false, false), dst)
  {
    SkipSpaceOver(lead, s);
    assert SkipSpace(s) == s;
  }

  /** `>> n` at a numeral in `int` range. */
  lemma ExtractIntAt(neg: bool, ds: seq<byte>, tail: seq<byte>, dst: Option<int>)
    requires ds != [] && AllDigits(ds)
    requires IntMin <= SignedValue(neg, ds) <= IntMax
    requires tail == [] || !IsDigit(tail[0])
    ensures ExtractInt(Stream((if neg then [45] else []) + ds + tail, false, false), dst)
            == (Some(SignedValue(neg, ds)), Stream(tail, tail == [], false))
  {
    if neg {
      ExtractNegativeAt(ds, tail, dst);
    } else {
      assert [] + ds + tail == ds + tail;
      ExtractUnsignedAt(ds, tail, dst);
    }
  }

  lemma ExtractUnsignedAt(ds: seq<byte>, tail: seq<byte>, dst: Option<int>)
    requires ds != [] && AllDigits(ds) && DigitsValue(ds) <= IntMax
    requires tail == [] || !IsDigit(tail[0])
    ensures ExtractInt(Stream(ds + tail, false, false), dst)
            == (Some(DigitsValue(ds)), Stream(tail, tail == [], false))
  {
    DigitRunOfNumeral(ds, tail);
    assert (ds + tail)[|ds|..] == tail;
    assert (ds + tail)[0] == ds[0];
  }

  lemma ExtractNegativeAt(ds: seq<byte>, tail: seq<byte>, dst: Option<int>)
    requires ds != [] && AllDigits(ds) && DigitsValue(ds) <= -IntMin
    requires tail == [] || !IsDigit(tail[0])
    ensures ExtractInt(Stream([45] + ds + tail, false, false), dst)
            == (Some(-(DigitsValue(ds) as int)), Stream(tail, tail == [], false))
  {
    var t := [45] + ds + tail;
    SignDropped(ds, tail);
    DigitRunOfNumeral(ds, tail);
    ExtractMinusRun(t, dst);
    var r := ExtractInt(Stream(t, false, false), dst);
    assert r.0 == Some(-(DigitsValue(ds) as int));
    assert r.1 == Stream(tail, tail == [], false);
  }

  /** Past the sign byte lie the numeral and what follows it. */
  lemma SignDropped(ds: seq<byte>, tail: seq<byte>)
    ensures ([45] + ds + tail)[1..] == ds + tail
    ensures (ds + tail)[|ds|..] == tail
  {
  }

  /** `>> n` at a minus sign followed by digits whose value fits stores the
      negated value, in the shape of the function's own steps. */
  lemma ExtractMinusRun(t: seq<byte>, dst: Option<int>)
    requires t != [] && t[0] == 45
    requires 0 < DigitRun(t[1..]) && DigitsValue(t[1..][..DigitRun(t[1..])]) <= -IntMin
    ensures ExtractInt(Stream(t, false, false), dst)
            == (Some(-(DigitsValue(t[1..][..DigitRun(t[1..])]) as int)),
                Stream(t[1..][DigitRun(t[1..])..], DigitRun(t[1..]) == |t[1..]|, false))
  {
    assert SkipSpace(t) == t;
  }

  /** `>> n` stores INT_MIN and sets `failbit` for a negative numeral below it. */
  lemma ExtractIntUnderflow(ds: seq<byte>, tail: seq<byte>, dst: Option<int>)
    requires AllDigits(ds) && DigitsValue(ds) > -IntMin
    requires tail != [] && !IsDigit(tail[0])
    ensures ExtractInt(Stream([45] + ds + tail, false, false), dst) == (Some(IntMin), Stream(tail, false, true))
  {
    var t := [45] + ds + tail;
    assert t[1..] == ds + tail;
    DigitRunOfNumeral(ds, tail);
    assert (ds + tail)[|ds|..] == tail;
  }

  /** `>> n` at a byte that cannot start a number stores 0, extracts nothing
      and sets `failbit`. */
  lemma ExtractIntNoDigits(t: seq<byte>, dst: Option<int>)
    requires t != [] && !IsSpace(t[0]) && !IsDigit(t[0]) && t[0] != 43 && t[0] != 45
    ensures ExtractInt(Stream(t, false, false), dst) == (Some(0), Stream(t, false, true))
  {
  }

  /** `atoi` skips leading whitespace. */
  lemma AtoiAfterSpace(lead: seq<byte>, s: seq<byte>)
    requires forall i :: 0 <= i < |lead| ==> IsSpace(lead[i])
    requires s == [] || !IsSpace(s[0])
    ensures Atoi(lead + s) == Atoi(s)
  {
    SkipSpaceOver(lead, s);
  }

  /** `atoi` of a numeral above INT_MAX has no defined result. */
  lemma AtoiOverflow(ds: seq<byte>)
    requires AllDigits(ds) && DigitsValue(ds) > IntMax
    ensures Atoi(ds) == None
  {
    DigitRunOfNumeral(ds, []);
    assert ds + [] == ds;
  }

  /** Skipping whitespace passes over a run of spaces and stops at the first
      byte that is not one. */
  lemma {:induction false} SkipSpaceOver(lead: seq<byte>, s: seq<byte>)
    requires forall i :: 0 <= i < |lead| ==> IsSpace(lead[i])
    requires s == [] || !IsSpace(s[0])
    ensures SkipSpace(lead + s) == s
  {
    if lead != [] {
      assert (lead + s)[1..] == lead[1..] + s;
      SkipSpaceOver(lead[1..], s);
    } else {
      assert lead + s == s;
    }
  }

  /** A word ends at the first whitespace byte after it. */
  lemma {:induction false} WordLengthOver(ws: seq<byte>, tail: seq<byte>)
    requires forall i :: 0 <= i < |ws| ==> !IsSpace(ws[i])
    requires tail != [] && IsSpace(tail[0])
    ensures WordLength(ws + tail) == |ws|
  {
    if ws != [] {
      assert (ws + tail)[1..] == ws[1..] + tail;
      WordLengthOver(ws[1..], tail);
    } else {
      assert ws + tail == tail;
    }
  }

  /** `>> str` on a good stream reads back a word that whitespace precedes and
      follows, and stops at the whitespace after it. */
  lemma ExtractWordOf(lead: seq<byte>, ws: seq<byte>, tail: seq<byte>, dst: seq<byte>)
    requires forall i :: 0 <= i < |lead| ==> IsSpace(lead[i])
    requires ws != [] && forall i :: 0 <= i < |ws| ==> !IsSpace(ws[i])
    requires tail != [] && IsSpace(tail[0])
    ensures ExtractWord(Stream(lead + ws + tail, false, false), dst) == (ws, Stream(tail, false, false))
  {
    assert lead + ws + tail == lead + (ws + tail);
    SkipSpaceOver(lead, ws + tail);
    WordLengthOver(ws, tail);
    assert (ws + tail)[..|ws|] == ws;
    assert (ws + tail)[|ws|..] == tail;
  }

  /** A line ends at the first newline after it. */
  lemma {:induction false} LineLengthOver(t: seq<byte>, rest: seq<byte>)
    requires forall i :: 0 <= i < |t| ==> t[i] != 10
    requires rest != [] && rest[0] == 10
    ensures LineLength(t + rest) == |t|
  {
    if t != [] {
      assert (t + rest)[1..] == t[1..] + rest;
      LineLengthOver(t[1..], rest);
    } else {
      assert t + rest == rest;
    }
  }

  /** `getline` on a good stream returns the bytes before the next newline,
      whatever they are, and leaves the stream just after that newline. */
  lemma GetLineOf(t: seq<byte>, rest: seq<byte>, dst: seq<byte>)
    requires forall i :: 0 <= i < |t| ==> t[i] != 10
    requires rest != [] && rest[0] == 10
    ensures GetLine(Stream(t + rest, false, false), dst) == (t, Stream(rest[1..], false, false))
  {
    LineLengthOver(t, rest);
    assert (t + rest)[..|t|] == t;
    assert (t + rest)[|t| + 1..] == rest[1..];
  }

  /** `c_str()` of a string without NUL bytes is the whole string. */
  lemma CStringOfNonNul(s: seq<byte>)
    requires forall i :: 0 <= i < |s| ==> s[i] != 0
    ensures CString(s) == s
  {
  }
}

=== FILE: native.dfy ===
/** Machine-level facts the C++ code relies on: bytes, the limits of `int` and
    `unsigned int`, the C character classes, and decimal numerals. */
module Native {

  /** An `unsigned char`, and one byte of a file. */
  type byte = x: int | 0 <= x < 256

  const IntMin: int := -0x8000_0000
  const IntMax: int := 0x7FFF_FFFF
  const UintMax: int := 0xFFFF_FFFF

  /** The conversion of an integer to 32-bit `unsigned int`: reduction modulo 2^32. */
  function Unsigned(x: int): (u: nat)
    ensures u <= UintMax
    ensures 0 <= x <= UintMax ==> u == x
    ensures (x - u) % 0x1_0000_0000 == 0
  {
    x % 0x1_0000_0000
  }

  /** C `isspace` in the "C" locale: space, \t, \n, \v, \f, \r. */
  predicate IsSpace(c: byte) {
    c == 32 || 9 <= c <= 13
  }

  /** C `isdigit`. */
  predicate IsDigit(c: byte) {
    48 <= c <= 57
  }

  predicate AllDigits(ds: seq<byte>) {
    forall i :: 0 <= i < |ds| ==> IsDigit(ds[i])
  }

  /** The value of a decimal numeral, most significant digit first. */
  function DigitsValue(ds: seq<byte>): nat
    requires AllDigits(ds)
  {
    if |ds| == 0 then 0 else DigitsValue(ds[..|ds| - 1]) * 10 + (ds[|ds| - 1] - 48)
  }

  /** The numeral `ofs << n` writes for an unsigned value: decimal, no leading zeros. */
  function Decimal(n: nat): (ds: seq<byte>)
    ensures |ds| >= 1 && AllDigits(ds)
    ensures DigitsValue(ds) == n
    ensures ds[0] == 48 ==> n == 0
  {
    if n < 10 then [48 + n]
    else
      var prefix := Decimal(n / 10);
      assert (prefix + [48 + n % 10])[..|prefix|] == prefix;
      prefix + [48 + n % 10]
  }

  /** The length of the run of digits that starts `s`. */
  function DigitRun(s: seq<byte>): (n: nat)
    ensures n <= |s|
    ensures AllDigits(s[..n])
    ensures n < |s| ==> !IsDigit(s[n])
  {
    if |s| > 0 && IsDigit(s[0]) then
      var n := 1 + DigitRun(s[1..]);
      assert s[..n] == [s[0]] + s[1..][..n - 1];
      n
    else 0
  }

  /** A numeral followed by a non-digit (or by nothing) is read as a whole. */
  lemma {:induction false} DigitRunOfNumeral(ds: seq<byte>, tail: seq<byte>)
    requires AllDigits(ds)
    requires tail == [] || !IsDigit(tail[0])
    ensures DigitRun(ds + tail) == |ds|
    ensures (ds + tail)[..|ds|] == ds
  {
    if |ds| > 0 {
      assert (ds + tail)[1..] == ds[1..] + tail;
      DigitRunOfNumeral(ds[1..], tail);
    }
  }
}

=== FILE: netpbm.dfy ===
/** `savePPM` and `readPPM`: the Netpbm codec over in-memory byte sequences.

    The encoder writes the binary full-colour variant (P6). The decoder dispatches
    on the header tag: P6 and P5 are binary, P3 and P2 are plain text; any other
    tag, or a file that cannot be opened, yields the empty image. The decoder's
    result is `None` on the inputs for which the C++ has no defined result (it
    reads an uninitialised variable, overflows a signed product or `atoi`, lets an
    exception other than its own string escape, or loops forever), and on those
    for which it builds an image outside `Valid`: more than INT_MAX pixels, or a
    buffer that does not hold w*h pixels. */
module Netpbm {
  import opened Native
  import opened Optional
  import opened Pixel
  import opened Raster
  import opened Istream

  // ---------------------------------------------------------------------------
  // Bytes and channels

  const NewLine: byte := 10
  const Space: byte := 32
  const Hash: byte := 35

  /** The byte that `ignore(256, '\n')` may discard up to. */
  const IgnoreLimit: nat := 256

  /** A channel value a file can carry: an integer in 0..255. */
  predicate IsLevel(v: real) {
    0.0 <= v <= 255.0 && v.Floor as real == v
  }

  predicate IsLevelPixel(p: Rgb) {
    IsLevel(p.r) && IsLevel(p.g) && IsLevel(p.b)
  }

  /** A level that is the code of a whitespace byte (\t, \n, \v, \f, \r, space). */
  predicate IsSpaceLevel(v: real) {
    v == 32.0 || 9.0 <= v <= 13.0
  }

  predicate IsGray(p: Rgb) {
    p.r == p.g && p.g == p.b
  }

  predicate AllLevels(ps: seq<Rgb>) {
    forall i :: 0 <= i < |ps| ==> IsLevelPixel(ps[i])
  }

  predicate AllGray(ps: seq<Rgb>) {
    forall i :: 0 <= i < |ps| ==> IsGray(ps[i])
  }

  /** The pixel a byte triple decodes to: each byte becomes a channel value. */
  function FromBytes(r: byte, g: byte, b: byte): (p: Rgb)
    ensures IsLevelPixel(p)
  {
    Rgb(r as real, g as real, b as real)
  }

  /** Channel k of a pixel, in file order r, g, b. */
  function Channel(p: Rgb, k: nat): (c: real)
    requires k < 3
    ensures c == p.r || c == p.g || c == p.b
    ensures EncodablePixel(p) ==> Encodable(c)
  {
    if k == 0 then p.r else if k == 1 then p.g else p.b
  }

  // ---------------------------------------------------------------------------
  // Header tags

  /** The four header tags `readPPM` recognises. */
  datatype Format = P6 | P5 | P3 | P2

  function Tag(f: Format): seq<byte> {
    match f
    case P6 => [80, 54]
    case P5 => [80, 53]
    case P3 => [80, 51]
    case P2 => [80, 50]
  }

  /** The chain of `strcmp` tests on the header word. */
  function Identify(tag: seq<byte>): (f: Option<Format>)
    ensures f.Some? ==> Tag(f.value) == tag
    ensures f.None? ==> forall g: Format :: Tag(g) != tag
  {
    if tag == Tag(P6) then Some(P6)
    else if tag == Tag(P5) then Some(P5)
    else if tag == Tag(P3) then Some(P3)
    else if tag == Tag(P2) then Some(P2)
    else None
  }

  /** The header word as `strcmp` sees it: the first word of the file, cut at a
      NUL byte. */
  function HeaderTag(data: seq<byte>): seq<byte> {
    CString(ExtractWord(Open(data), []).0)
  }

  // ---------------------------------------------------------------------------
  // Encoder

  /** `static_cast<unsigned char>` truncates toward zero. */
  function Trunc(v: real): int {
    if v >= 0.0 then v.Floor else -((-v).Floor)
  }

  /** The channel values whose truncation fits an `unsigned char`; the conversion
      of any other value is undefined behaviour. */
  predicate Encodable(v: real) {
    -1.0 < v < 256.0
  }

  predicate EncodablePixel(p: Rgb) {
    Encodable(p.r) && Encodable(p.g) && Encodable(p.b)
  }

  /** One channel as `savePPM` writes it: the cast to `unsigned char` comes
      BEFORE `% 255`, so the value is truncated and then wrapped, and 255 (white)
      is written as 0. */
  function EncodeChannel(v: real): (b: byte)
    requires Encodable(v)
    ensures b <= 254
    ensures 0.0 <= v < 255.0 ==> b as real <= v < b as real + 1.0
    ensures v < 0.0 || 255.0 <= v ==> b == 0
  {
    Trunc(v) % 255
  }

  function EncodePixel(p: Rgb): (bs: seq<byte>)
    requires EncodablePixel(p)
  {
    [EncodeChannel(p.r), EncodeChannel(p.g), EncodeChannel(p.b)]
  }

  /** The body of a P6 file: three bytes per pixel in row-major order. */
  function EncodePixels(ps: seq<Rgb>): (bs: seq<byte>)
    requires forall i :: 0 <= i < |ps| ==> EncodablePixel(ps[i])
    ensures |bs| == 3 * |ps|
    ensures forall j :: 0 <= j < |bs| ==> bs[j] <= 254
  {
    if |ps| == 0 then [] else EncodePixel(ps[0]) + EncodePixels(ps[1..])
  }

  /** Bytes 3i, 3i+1, 3i+2 of the body encode pixel i. */
  lemma {:induction false} EncodePixelsAt(ps: seq<Rgb>, i: nat, k: nat)
    requires forall j :: 0 <= j < |ps| ==> EncodablePixel(ps[j])
    requires i < |ps| && k < 3
    ensures EncodePixels(ps)[3 * i + k] == EncodeChannel(Channel(ps[i], k))
  {
    if i > 0 {
      EncodePixelsAt(ps[1..], i - 1, k);
      assert EncodePixels(ps) == EncodePixel(ps[0]) + EncodePixels(ps[1..]);
    }
  }

  /** `"P6\n" << w << " " << h << "\n255\n"`. */
  function Header(w: nat, h: nat): seq<byte> {
    [80, 54, NewLine] + Decimal(w) + [Space] + Decimal(h) + [NewLine, 50, 53, 53, NewLine]
  }

  /** `savePPM`: `None` when the image is empty and nothing is written, otherwise
      the bytes written to the file. Opening the output file is not modelled. */
  function SavePPM(img: Image): (out: Option<seq<byte>>)
    requires Valid(img)
    requires forall i :: 0 <= i < |img.pixels| ==> EncodablePixel(img.pixels[i])
    ensures out.None? <==> img.w == 0 || img.h == 0
    ensures out.Some? ==> |out.value| == |Header(img.w, img.h)| + 3 * (img.w * img.h)
    ensures out.Some? ==> out.value[..|Header(img.w, img.h)|] == Header(img.w, img.h)
    ensures out.Some? ==> forall j :: |Header(img.w, img.h)| <= j < |out.value| ==> out.value[j] <= 254
    ensures out.Some? ==>
              forall i, k :: 0 <= i < |img.pixels| && 0 <= k < 3 ==>
                out.value[|Header(img.w, img.h)| + 3 * i + k] == EncodeChannel(Channel(img.pixels[i], k))
  {
    if img.w == 0 || img.h == 0 then None
    else
      var head := Header(img.w, img.h);
      var body := EncodePixels(img.pixels);
      var out := head + body;
      assert out[..|head|] == head;
      forall i, k | 0 <= i < |img.pixels| && 0 <= k < 3
        ensures out[|head| + 3 * i + k] == EncodeChannel(Channel(img.pixels[i], k))
      {
        EncodePixelsAt(img.pixels, i, k);
      }
      assert forall j :: |head| <= j < |out| ==> out[j] == body[j - |head|];
      Some(out)
  }

  // ---------------------------------------------------------------------------
  // Decoder: binary branches

  /** The P6 pixel loop: `w*h` times `ifs.read(pix, 3)` into the same three-byte
      buffer. After a short read the buffer keeps its old bytes; a cell that was
      never written is uninitialised, and reading it is `None`. */
  function ReadTriples(st: Stream, pix: seq<Option<byte>>, n: nat): (px: Option<seq<Rgb>>)
    requires |pix| == 3
    ensures px.Some? ==> |px.value| == n && AllLevels(px.value)
    decreases n
  {
    if n == 0 then Some([])
    else
      var (buf, st') := Read(st, pix);
      if buf[0].None? || buf[1].None? || buf[2].None? then None
      else
        match ReadTriples(st', buf, n - 1)
        case None => None
        case Some(rest) => Some([FromBytes(buf[0].value, buf[1].value, buf[2].value)] + rest)
  }

  /** The P5 pixel loop: `w*h` times `ifs >> pix` into one `unsigned char`, which
      skips whitespace bytes and keeps its old value once the stream fails. So
      no pixel read this way has a whitespace level. */
  function ReadGrayBytes(st: Stream, pix: Option<byte>, n: nat): (px: Option<seq<Rgb>>)
    ensures px.Some? ==> |px.value| == n && AllLevels(px.value) && AllGray(px.value)
    ensures px.Some? && (pix.None? || !IsSpace(pix.value)) ==>
              forall i :: 0 <= i < n ==> !IsSpaceLevel(px.value[i].r)
    decreases n
  {
    if n == 0 then Some([])
    else
      var (c, st') := ExtractByte(st, pix);
      match c
      case None => None
      case Some(v) =>
        match ReadGrayBytes(st', c, n - 1)
        case None => None
        case Some(rest) => Some([FromBytes(v, v, v)] + rest)
  }

  /** The image a binary branch builds from `w`, `h` (as read into `int`s) and
      its pixels: the dimensions are stored into `unsigned` fields. */
  function Assemble(w: int, h: int, px: seq<Rgb>): (img: Option<Image>)
    ensures img.Some? ==> Valid(img.value) && img.value.pixels == px
    ensures 0 <= w <= IntMax && 0 <= h <= IntMax && w * h <= IntMax && |px| == w * h ==>
              img == Some(Image(w, h, px))
  {
    var img := Image(Unsigned(w), Unsigned(h), px);
    if Valid(img) then Some(img) else None
  }

  /** The binary branches after the tag: `ifs >> w >> h >> b`, then
      `ignore(256, '\n')`, then the pixel loop. `w` and `h` start uninitialised; a
      negative product makes `new[]` throw an exception `readPPM` does not catch,
      and a product past INT_MAX overflows. */
  function ReadBinary(st: Stream, gray: bool): (img: Option<Image>)
    ensures img.Some? ==> Valid(img.value) && AllLevels(img.value.pixels)
    ensures img.Some? && gray ==> AllGray(img.value.pixels)
    ensures img.Some? && gray ==> forall i :: 0 <= i < |img.value.pixels| ==> !IsSpaceLevel(img.value.pixels[i].r)
  {
    var (w, s1) := ExtractInt(st, None);
    var (h, s2) := ExtractInt(s1, None);
    var (_, s3) := ExtractInt(s2, None);
    if w.None? || h.None? then None
    else if w.value * h.value < 0 || w.value * h.value > IntMax then None
    else
      var s4 := Ignore(s3, IgnoreLimit, NewLine);
      var px := if gray then ReadGrayBytes(s4, None, w.value * h.value)
                else ReadTriples(s4, [None, None, None], w.value * h.value);
      match px
      case None => None
      case Some(ps) => Assemble(w.value, h.value, ps)
  }

  // ---------------------------------------------------------------------------
  // Decoder: plain-text branches

  predicate IsComment(word: seq<byte>) {
    |word| > 0 && word[0] == Hash
  }

  /** The comment loop of the P3/P2 branches: while the word starts with '#',
      discard the rest of its line with `getline(ifs, line)` and read the next
      word. Once the stream fails while the word is a comment, neither read
      changes it and the loop never ends: `None`. Returns the first non-comment
      word, the last line read, and the stream. */
  function SkipComments(st: Stream, word: seq<byte>, line: seq<byte>)
    : (r: Option<(seq<byte>, seq<byte>, Stream)>)
    ensures r.Some? ==> !IsComment(r.value.0)
    ensures !IsComment(word) ==> r == Some((word, line, st))
    decreases |st.rest|, if Good(st) then 1 else 0
  {
    if !IsComment(word) then Some((word, line, st))
    else if !Good(st) then None
    else
      var (line', s1) := GetLine(st, line);
      var (word', s2) := ExtractWord(s1, word);
      SkipComments(s2, word', line')
  }

  /** `j = atoi(line.c_str())` with `j` an `unsigned char`: the integer reduced
      modulo 256. */
  function LevelOf(word: seq<byte>): Option<byte> {
    match Atoi(CString(word))
    case None => None
    case Some(v) => Some(v % 256)
  }

  /** `n` iterations of `ifs >> line`: the words read, in order, and the stream
      after them. Once the stream fails, `line` keeps the last word read, so
      every later read yields it again. */
  function ReadWords(st: Stream, line: seq<byte>, n: nat): (r: (seq<seq<byte>>, Stream))
    ensures |r.0| == n
    decreases n
  {
    if n == 0 then ([], st)
    else
      var (l, s) := ExtractWord(st, line);
      var (ls, s') := ReadWords(s, l, n - 1);
      ([l] + ls, s')
  }

  /** The `atoi` conversion of each word, reduced to an `unsigned char`; `None`
      when any of them overflows. */
  function LevelsOf(ws: seq<seq<byte>>): (vs: Option<seq<byte>>)
    ensures vs.Some? <==> forall i :: 0 <= i < |ws| ==> LevelOf(ws[i]).Some?
    ensures vs.Some? ==> |vs.value| == |ws|
    ensures vs.Some? ==> forall i :: 0 <= i < |ws| ==> LevelOf(ws[i]) == Some(vs.value[i])
  {
    if ws == [] then Some([])
    else
      match LevelOf(ws[0])
      case None => None
      case Some(v) =>
        match LevelsOf(ws[1..])
        case None => None
        case Some(vs) => Some([v] + vs)
  }

  /** The P3 pixel loop: three `ifs >> line; pix[j] = atoi(line.c_str())` per
      pixel. Reading a word never depends on the conversions, so the loop is the
      3n words read in order, each converted. */
  function ReadColorWords(st: Stream, line: seq<byte>, n: nat): (px: Option<seq<Rgb>>)
    ensures px.Some? ==> |px.value| == n && AllLevels(px.value)
  {
    match LevelsOf(ReadWords(st, line, 3 * n).0)
    case None => None
    case Some(vs) => Some(Triples(vs, n))
  }

  /** Levels grouped three by three into pixels. */
  function Triples(vs: seq<byte>, n: nat): (ps: seq<Rgb>)
    requires |vs| == 3 * n
    ensures |ps| == n && AllLevels(ps)
    ensures forall i :: 0 <= i < n ==> ps[i] == FromBytes(vs[3 * i], vs[3 * i + 1], vs[3 * i + 2])
  {
    seq(n, i requires 0 <= i < n => FromBytes(vs[3 * i], vs[3 * i + 1], vs[3 * i + 2]))
  }

  /** The P2 pixel loop: one `ifs >> line; pix = atoi(line.c_str())` per pixel,
      replicated to r, g and b. */
  function ReadGrayWords(st: Stream, line: seq<byte>, n: nat): (px: Option<seq<Rgb>>)
    ensures px.Some? ==> |px.value| == n && AllLevels(px.value) && AllGray(px.value)
  {
    match LevelsOf(ReadWords(st, line, n).0)
    case None => None
    case Some(vs) => Some(Grays(vs))
  }

  /** Each level replicated into a gray pixel. */
  function Grays(vs: seq<byte>): (ps: seq<Rgb>)
    ensures |ps| == |vs| && AllLevels(ps) && AllGray(ps)
    ensures forall i :: 0 <= i < |vs| ==> ps[i] == FromBytes(vs[i], vs[i], vs[i])
  {
    seq(|vs|, i requires 0 <= i < |vs| => FromBytes(vs[i], vs[i], vs[i]))
  }

  /** The header of the plain-text branches: `ifs >> l1`, the comment loop, then
      `ifs >> l2 >> l3`. Returns the dimension words l1 and l2, the last `line`
      the comment loop read, and the stream. */
  function PlainHeader(st: Stream): (r: Option<(seq<byte>, seq<byte>, seq<byte>, Stream)>)
    ensures r.Some? ==> !IsComment(r.value.0)
  {
    var (l1, s1) := ExtractWord(st, []);
    match SkipComments(s1, l1, [])
    case None => None
    case Some((dim, line, s2)) =>
      var (l2, s3) := ExtractWord(s2, []);
      var (_, s4) := ExtractWord(s3, []);
      Some((dim, l2, line, s4))
  }

  /** The rest of a plain-text branch once `img.w = w; img.h = h` has stored two
      `int`s into the `unsigned` fields: the pixel loop over the `unsigned`
      product `img.w * img.h`. */
  function PlainPixels(w: int, h: int, st: Stream, line: seq<byte>, gray: bool): (img: Option<Image>)
    ensures img.Some? ==> Valid(img.value) && AllLevels(img.value.pixels)
    ensures img.Some? ==> img.value.w == Unsigned(w) && img.value.h == Unsigned(h)
    ensures img.Some? && gray ==> AllGray(img.value.pixels)
  {
    var uw, uh := Unsigned(w), Unsigned(h);
    var count := Unsigned(uw * uh);
    var px := if gray then ReadGrayWords(st, line, count) else ReadColorWords(st, line, count);
    match px
    case None => None
    case Some(ps) =>
      var img := Image(uw, uh, ps);
      if Valid(img) then Some(img) else None
  }

  /** The plain-text branches after the tag, as written: BOTH `img.w` and `img.h`
      are set from `atoi(l1)`, and the second dimension word is read and
      ignored, so every image read this way is square. */
  function ReadPlain(st: Stream, gray: bool): (img: Option<Image>)
    ensures img.Some? ==> Valid(img.value) && AllLevels(img.value.pixels)
    ensures img.Some? ==> img.value.w == img.value.h
    ensures img.Some? && gray ==> AllGray(img.value.pixels)
  {
    match PlainHeader(st)
    case None => None
    case Some((l1, _, line, s)) =>
      match Atoi(CString(l1))
      case None => None
      case Some(side) => PlainPixels(side, side, s, line, gray)
  }

  // ---------------------------------------------------------------------------
  // Decoder

  /** `readPPM`. `file` is the content of the named file, `None` when it cannot be
      opened. */
  function ReadPPM(file: Option<seq<byte>>): (img: Option<Image>)
    ensures file.None? ==> img == Some(Empty)
    ensures file.Some? && Identify(HeaderTag(file.value)).None? ==> img == Some(Empty)
    ensures img.Some? ==> Valid(img.value) && AllLevels(img.value.pixels)
    ensures img.Some? && file.Some? && Identify(HeaderTag(file.value)) in {Some(P3), Some(P2)} ==>
              img.value.w == img.value.h
    ensures img.Some? && file.Some? && Identify(HeaderTag(file.value)) in {Some(P5), Some(P2)} ==>
              AllGray(img.value.pixels)
    ensures img.Some? && file.Some? && Identify(HeaderTag(file.value)) == Some(P5) ==>
              forall i :: 0 <= i < |img.value.pixels| ==> !IsSpaceLevel(img.value.pixels[i].r)
  {
    match file
    case None => Some(Empty)
    case Some(data) =>
      var (word, st) := ExtractWord(Open(data), []);
      match Identify(CString(word))
      case None => Some(Empty)
      case Some(P6) => ReadBinary(st, false)
      case Some(P5) => ReadBinary(st, true)
      case Some(P3) => ReadPlain(st, false)
      case Some(P2) => ReadPlain(st, true)
  }
}

=== FILE: optional.dfy ===
/** An optional value, used wherever the modelled C++ code has no defined result. */
module Optional {

  datatype Option<+T> = None | Some(value: T)
}

=== FILE: pixel.dfy ===
/** `Image::Rgb`: one pixel, a triple of channel intensities, and its
    compound-assignment operators. Channels are exact reals: they are nominally
    in [0, 255] but nothing keeps them there. */
module Pixel {

  datatype Rgb = Rgb(r: real, g: real, b: real)

  /** `Rgb(float c)`: the grey pixel with every channel equal to `c`. */
  function Gray(c: real): Rgb {
    Rgb(c, c, c)
  }

  /** `kBlack`, the default fill colour. */
  const Black: Rgb := Gray(0.0)

  predicate NonNegative(p: Rgb) {
    p.r >= 0.0 && p.g >= 0.0 && p.b >= 0.0
  }

  /** Every channel of `p` is at least the matching channel of `q`. */
  predicate Dominates(p: Rgb, q: Rgb) {
    p.r >= q.r && p.g >= q.g && p.b >= q.b
  }

  /** `d` is max(0, a - b): the least non-negative value not below a - b. */
  predicate IsClampedDifference(a: real, b: real, d: real) {
    d >= 0.0 && d >= a - b && (d == 0.0 || d == a - b)
  }

  /** `operator !=` as written: it joins the channel comparisons with `&&`, so it
      holds only when all three channels differ. */
  predicate Differs(p: Rgb, c: Rgb) {
    c.r != p.r && c.g != p.g && c.b != p.b
  }

  /** `operator +=`: the channel-wise sum, not clamped. */
  function Sum(p: Rgb, c: Rgb): (s: Rgb)
    ensures s.r - c.r == p.r && s.g - c.g == p.g && s.b - c.b == p.b
  {
    Rgb(p.r + c.r, p.g + c.g, p.b + c.b)
  }

  /** `operator -=`: the channel-wise difference clamped at zero. */
  function ClampedSub(p: Rgb, c: Rgb): (d: Rgb)
    ensures NonNegative(d)
    ensures IsClampedDifference(p.r, c.r, d.r)
    ensures IsClampedDifference(p.g, c.g, d.g)
    ensures IsClampedDifference(p.b, c.b, d.b)
  {
    Rgb(if p.r > c.r then p.r - c.r else 0.0,
        if p.g > c.g then p.g - c.g else 0.0,
        if p.b > c.b then p.b - c.b else 0.0)
  }

  /** `operator *= (float)`: every channel scaled by `k`. */
  function Scale(p: Rgb, k: real): (s: Rgb)
    ensures k == 1.0 ==> s == p
    ensures k == 0.0 ==> s == Black
    ensures s.r == k * p.r && s.g == k * p.g && s.b == k * p.b
  {
    Rgb(p.r * k, p.g * k, p.b * k)
  }

  /** `operator *= (const Rgb &)`: channel-wise product. */
  function Modulate(p: Rgb, c: Rgb): (m: Rgb)
    ensures m.r == p.r * c.r && m.g == p.g * c.g && m.b == p.b * c.b
    ensures c == Gray(c.r) ==> m == Scale(p, c.r)
    ensures c == Gray(1.0) ==> m == p
  {
    Rgb(p.r * c.r, p.g * c.g, p.b * c.b)
  }

  /** Channel-wise multiplication does not depend on the order of its operands. */
  lemma ModulateCommutes(p: Rgb, c: Rgb)
    ensures Modulate(p, c) == Modulate(c, p)
  {
  }

  /** `Differs` implies inequality, but the converse fails: the operator is not
      the negation of equality. */
  lemma DiffersIsNotInequality()
    ensures forall p, c :: Differs(p, c) ==> p != c
    ensures Rgb(1.0, 2.0, 3.0) != Rgb(1.0, 2.0, 4.0)
    ensures !Differs(Rgb(1.0, 2.0, 3.0), Rgb(1.0, 2.0, 4.0))
  {
  }

  /** Subtracting then adding back the subtrahend restores the pixel exactly when no
      channel was clamped. */
  lemma SubThenAdd(p: Rgb, c: Rgb)
    ensures Sum(ClampedSub(p, c), c) == p <==> Dominates(p, c)
  {
  }

  /** Adding then subtracting restores every non-negative pixel. */
  lemma AddThenSub(p: Rgb, c: Rgb)
    requires NonNegative(p)
    ensures ClampedSub(Sum(p, c), c) == p
  {
  }

  /** Two scalings compose into one by the product of the factors. */
  lemma ScaleCompose(p: Rgb, k: real, m: real)
    ensures Scale(Scale(p, k), m) == Scale(p, k * m)
  {
  }

  /** The worked example of a clamped subtraction: (10,10,10) - (20,5,5) = (0,5,5). */
  lemma ClampedSubExample()
    ensures ClampedSub(Rgb(10.0, 10.0, 10.0), Rgb(20.0, 5.0, 5.0)) == Rgb(0.0, 5.0, 5.0)
  {
  }
}

=== FILE: plaintext.dfy ===
/** The plain-text (P3) branch of `readPPM` set against the file layout it is
    meant to read: the tag, the width, the height, the maximum level 255, then
    three decimal levels per pixel in row-major order.

    As written, the branch takes the height from the WIDTH word, so it reads such
    a file back exactly only when the image is square. `ReadPPMCorrected` is the
    decoder with the height taken from the second dimension word; it reads every
    such file back exactly. */
module PlainText {
  import opened Native
  import opened Optional
  import opened Pixel
  import opened Raster
  import opened Istream
  import opened Netpbm

  // ---------------------------------------------------------------------------
  // The corrected decoder

  /** The plain-text branches with `img.h = atoi(l2.c_str())`. */
  function ReadPlainCorrected(st: Stream, gray: bool): (img: Option<Image>)
    ensures img.Some? ==> Valid(img.value) && AllLevels(img.value.pixels)
    ensures img.Some? && gray ==> AllGray(img.value.pixels)
  {
    match PlainHeader(st)
    case None => None
    case Some((l1, l2, line, s)) =>
      match Atoi(CString(l1))
      case None => None
      case Some(w) =>
        match Atoi(CString(l2))
        case None => None
        case Some(h) => PlainPixels(w, h, s, line, gray)
  }

  /** `readPPM` with the corrected plain-text branches; on every other tag, and
      on a file that cannot be opened, it is `readPPM` as written. */
  function ReadPPMCorrected(file: Option<seq<byte>>): (img: Option<Image>)
    ensures file.None? || Identify(HeaderTag(file.value)) !in {Some(P3), Some(P2)} ==>
              img == ReadPPM(file)
    ensures img.Some? ==> Valid(img.value) && AllLevels(img.value.pixels)
    ensures img.Some? && file.Some? && Identify(HeaderTag(file.value)) in {Some(P5), Some(P2)} ==>
              AllGray(img.value.pixels)
  {
    match file
    case None => ReadPPM(file)
    case Some(data) =>
      var (word, st) := ExtractWord(Open(data), []);
      match Identify(CString(word))
      case Some(P3) => ReadPlainCorrected(st, false)
      case Some(P2) => ReadPlainCorrected(st, true)
      case _ => ReadPPM(file)
  }

  // ---------------------------------------------------------------------------
  // The plain-text layout

  /** Words, each preceded by its own separator byte. */
  function Joined(seps: seq<byte>, ws: seq<seq<byte>>): seq<byte>
    requires |seps| == |ws|
  {
    if ws == [] then [] else [seps[0]] + ws[0] + Joined(seps[1..], ws[1..])
  }

  /** A word `>> str` can read: not empty, no whitespace. */
  predicate IsWord(word: seq<byte>) {
    word != [] && Solid(word)
  }

  /** Whitespace separators, one before each word. */
  predicate Spaced(seps: seq<byte>, ws: seq<seq<byte>>) {
    && |seps| == |ws|
    && (forall i :: 0 <= i < |seps| ==> IsSpace(seps[i]))
    && (forall i :: 0 <= i < |ws| ==> IsWord(ws[i]))
  }

  /** A level channel as the integer the file spells out. */
  function LevelValue(v: real): (n: byte)
    requires IsLevel(v)
    ensures n as real == v
  {
    v.Floor
  }

  /** The levels of `ps` in file order: r, g and b of each pixel in turn. */
  function Channels(ps: seq<Rgb>): (vs: seq<byte>)
    requires AllLevels(ps)
    ensures |vs| == 3 * |ps|
  {
    if ps == [] then []
    else [LevelValue(ps[0].r), LevelValue(ps[0].g), LevelValue(ps[0].b)] + Channels(ps[1..])
  }

  /** Each level in decimal. */
  function Spell(vs: seq<byte>): (ws: seq<seq<byte>>)
    ensures |ws| == |vs|
    ensures forall i :: 0 <= i < |vs| ==> ws[i] == Decimal(vs[i])
  {
    seq(|vs|, i requires 0 <= i < |vs| => Decimal(vs[i]))
  }

  /** The separators of the pixel levels: a line break before each pixel and a
      space between its channels. */
  function Layout(n: nat): (seps: seq<byte>)
    ensures |seps| == 3 * n
    ensures forall j :: 0 <= j < 3 * n ==> IsSpace(seps[j])
  {
    seq(3 * n, j requires 0 <= j < 3 * n => if j % 3 == 0 then NewLine else Space)
  }

  /** The pixel levels of a plain-text file. */
  function Body(ps: seq<Rgb>): seq<byte>
    requires AllLevels(ps)
  {
    Joined(Layout(|ps|), Spell(Channels(ps)))
  }

  /** The three header numbers: width, height, maximum level. */
  function HeaderWords(img: Image): seq<seq<byte>> {
    [Decimal(img.w), Decimal(img.h), Decimal(255)]
  }

  const HeaderSeps: seq<byte> := [NewLine, Space, NewLine]

  /** The plain-text file of an image: "P3", then w, h and 255, then three
      levels per pixel, each number preceded by a whitespace byte, and a final
      line break. */
  function PlainFile(img: Image): seq<byte>
    requires AllLevels(img.pixels)
  {
    Tag(P3) + Contents(img)
  }

  /** The file after its tag. */
  function Contents(img: Image): seq<byte>
    requires AllLevels(img.pixels)
  {
    Joined(HeaderSeps, HeaderWords(img)) + (Body(img.pixels) + [NewLine])
  }

  // ---------------------------------------------------------------------------
  // Reading the layout back

  /** A numeral is a word, and holds no NUL byte. */
  lemma NumeralIsWord(n: nat)
    ensures IsWord(Decimal(n))
    ensures forall i :: 0 <= i < |Decimal(n)| ==> Decimal(n)[i] != 0
  {
  }

  /** `atoi(str.c_str())` of a numeral whose value fits in an `int` is its value. */
  lemma AtoiOfDecimal(n: nat)
    requires n <= IntMax
    ensures Atoi(CString(Decimal(n))) == Some(n)
  {
    NumeralIsWord(n);
    CStringOfNonNul(Decimal(n));
    AtoiOfNumeral(Decimal(n));
  }

  /** A level spelled in decimal converts back to itself. */
  lemma LevelOfDecimal(n: byte)
    ensures LevelOf(Decimal(n)) == Some(n)
  {
    AtoiOfDecimal(n);
    LevelOfWord(Decimal(n), n);
  }

  lemma LevelOfWord(word: seq<byte>, n: byte)
    requires Atoi(CString(word)) == Some(n)
    ensures LevelOf(word) == Some(n)
  {
    assert n % 256 == n;
  }

  lemma JoinedCons(seps: seq<byte>, ws: seq<seq<byte>>, tail: seq<byte>)
    requires |seps| == |ws| && ws != []
    ensures Joined(seps, ws) + tail == [seps[0]] + ws[0] + (Joined(seps[1..], ws[1..]) + tail)
  {
  }

  /** Joined words followed by whitespace start with whitespace. */
  lemma JoinedThenSpace(seps: seq<byte>, ws: seq<seq<byte>>, tail: seq<byte>)
    requires Spaced(seps, ws)
    requires tail != [] && IsSpace(tail[0])
    ensures Joined(seps, ws) + tail != [] && IsSpace((Joined(seps, ws) + tail)[0])
  {
    if ws == [] {
      assert Joined(seps, ws) + tail == tail;
    } else {
      JoinedCons(seps, ws, tail);
    }
  }

  /** `>> str` takes the first of the joined words. */
  lemma ExtractFirst(seps: seq<byte>, ws: seq<seq<byte>>, tail: seq<byte>, dst: seq<byte>)
    requires Spaced(seps, ws) && ws != []
    requires tail != [] && IsSpace(tail[0])
    ensures ExtractWord(Stream(Joined(seps, ws) + tail, false, false), dst)
            == (ws[0], Stream(Joined(seps[1..], ws[1..]) + tail, false, false))
  {
    JoinedCons(seps, ws, tail);
    var rest := Joined(seps[1..], ws[1..]) + tail;
    JoinedThenSpace(seps[1..], ws[1..], tail);
    ExtractWordOf([seps[0]], ws[0], rest, dst);
  }

  /** One `ifs >> line` whose word is known. */
  lemma ReadWordsStep(st: Stream, line: seq<byte>, n: nat, m: nat, l: seq<byte>, s: Stream)
    requires n == m + 1 && ExtractWord(st, line) == (l, s)
    ensures ReadWords(st, line, n) == ([l] + ReadWords(s, l, m).0, ReadWords(s, l, m).1)
  {
  }

  /** The last of `ws`, or `line` when there is none. */
  function LastOr(ws: seq<seq<byte>>, line: seq<byte>): (l: seq<byte>)
    ensures ws != [] ==> l == ws[|ws| - 1]
    ensures ws == [] ==> l == line
  {
    if ws == [] then line else ws[|ws| - 1]
  }

  lemma HeadThenTail(ws: seq<seq<byte>>, more: seq<seq<byte>>)
    requires ws != []
    ensures [ws[0]] + (ws[1..] + more) == ws + more
  {
    assert ws == [ws[0]] + ws[1..];
  }

  /** Reading joined words takes them in order, whatever `line` held and whatever
      follows, as long as a whitespace byte does; further reads continue on what
      follows, with `line` holding the last word read. */
  lemma {:induction false} ReadJoined(seps: seq<byte>, ws: seq<seq<byte>>, tail: seq<byte>,
                                      line: seq<byte>, k: nat, n: nat)
    requires Spaced(seps, ws) && n == |ws| + k
    requires tail != [] && IsSpace(tail[0])
    ensures var after := ReadWords(Stream(tail, false, false), LastOr(ws, line), k);
            ReadWords(Stream(Joined(seps, ws) + tail, false, false), line, n) == (ws + after.0, after.1)
    decreases |ws|
  {
    var after := ReadWords(Stream(tail, false, false), LastOr(ws, line), k);
    if ws == [] {
      assert Joined(seps, ws) + tail == tail;
      assert ws + after.0 == after.0;
    } else {
      var m: nat := n - 1;
      var st := Stream(Joined(seps, ws) + tail, false, false);
      var rest := Stream(Joined(seps[1..], ws[1..]) + tail, false, false);
      ExtractFirst(seps, ws, tail, line);
      ReadWordsStep(st, line, n, m, ws[0], rest);
      ReadJoined(seps[1..], ws[1..], tail, ws[0], k, m);
      assert LastOr(ws[1..], ws[0]) == LastOr(ws, line);
      HeadThenTail(ws, after.0);
    }
  }

  /** Once the stream has failed, every further `ifs >> line` leaves `line` as
      it was. */
  lemma {:induction false} ReadWordsStale(st: Stream, line: seq<byte>, k: nat)
    requires !Sentry(st).0
    ensures ReadWords(st, line, k).0 == seq(k, _ => line)
    decreases k
  {
    if k > 0 {
      var s := ExtractWord(st, line).1;
      assert ExtractWord(st, line) == (line, s) && s.fail;
      var m: nat := k - 1;
      ReadWordsStep(st, line, k, m, line, s);
      ReadWordsStale(s, line, m);
      assert seq(k, _ => line) == [line] + seq(m, _ => line);
    }
  }

  /** The numerals of the pixel levels are words. */
  lemma BodySpaced(ps: seq<Rgb>)
    requires AllLevels(ps)
    ensures Spaced(Layout(|ps|), Spell(Channels(ps)))
  {
    var vs := Channels(ps);
    forall i | 0 <= i < |vs|
      ensures IsWord(Spell(vs)[i])
    {
      NumeralIsWord(vs[i]);
    }
  }

  /** Levels 3i, 3i+1 and 3i+2 are the channels of pixel i. */
  lemma {:induction false} ChannelsAt(ps: seq<Rgb>, i: nat)
    requires AllLevels(ps) && i < |ps|
    ensures Channels(ps)[3 * i] as real == ps[i].r
    ensures Channels(ps)[3 * i + 1] as real == ps[i].g
    ensures Channels(ps)[3 * i + 2] as real == ps[i].b
  {
    var head := [LevelValue(ps[0].r), LevelValue(ps[0].g), LevelValue(ps[0].b)];
    assert Channels(ps) == head + Channels(ps[1..]);
    if i > 0 {
      ChannelsAt(ps[1..], i - 1);
    }
  }

  /** Grouping the levels of `ps` three by three gives `ps` back. */
  lemma TriplesOfChannels(ps: seq<Rgb>)
    requires AllLevels(ps)
    ensures Triples(Channels(ps), |ps|) == ps
  {
    forall i | 0 <= i < |ps|
      ensures Triples(Channels(ps), |ps|)[i] == ps[i]
    {
      ChannelsAt(ps, i);
    }
  }

  /** Converting spelled-out levels gives the levels back. */
  lemma LevelsOfSpell(vs: seq<byte>)
    ensures LevelsOf(Spell(vs)) == Some(vs)
  {
    var ws := Spell(vs);
    forall i | 0 <= i < |vs|
      ensures LevelOf(ws[i]) == Some(vs[i])
    {
      LevelOfDecimal(vs[i]);
    }
    assert LevelsOf(ws).Some?;
    assert LevelsOf(ws).value == vs;
  }

  /** The P3 pixel loop reads the body of `ps` back as `ps`. */
  lemma ReadColorWordsOf(ps: seq<Rgb>, tail: seq<byte>, line: seq<byte>)
    requires AllLevels(ps)
    requires tail != [] && IsSpace(tail[0])
    ensures ReadColorWords(Stream(Body(ps) + tail, false, false), line, |ps|) == Some(ps)
  {
    var ws := Spell(Channels(ps));
    assert ReadWords(Stream(Body(ps) + tail, false, false), line, 3 * |ps|).0 == ws by {
      BodySpaced(ps);
      ReadJoined(Layout(|ps|), ws, tail, line, 0, 3 * |ps|);
      assert ws + [] == ws;
    }
    LevelsOfSpell(Channels(ps));
    TriplesOfChannels(ps);
  }

  /** The tag word of a file that continues with whitespace. */
  lemma TagThenSpace(f: Format, rest: seq<byte>)
    requires rest != [] && IsSpace(rest[0])
    ensures ExtractWord(Open(Tag(f) + rest), []) == (Tag(f), Stream(rest, false, false))
    ensures Identify(HeaderTag(Tag(f) + rest)) == Some(f)
  {
    TagWord(f, rest);
    CStringOfNonNul(Tag(f));
  }

  lemma TagWord(f: Format, rest: seq<byte>)
    requires rest != [] && IsSpace(rest[0])
    ensures ExtractWord(Open(Tag(f) + rest), []) == (Tag(f), Stream(rest, false, false))
  {
    assert Tag(f) + rest == [] + Tag(f) + rest;
    ExtractWordOf([], Tag(f), rest, []);
  }

  /** The contents of a plain-text file start with whitespace. */
  lemma ContentsStart(img: Image)
    requires AllLevels(img.pixels)
    ensures Contents(img) != [] && Contents(img)[0] == NewLine
  {
    JoinedCons(HeaderSeps, HeaderWords(img), Body(img.pixels) + [NewLine]);
  }

  /** The tag word of a plain-text file identifies P3 and leaves the stream at
      the line break after it. */
  lemma PlainTag(img: Image)
    requires AllLevels(img.pixels)
    ensures ExtractWord(Open(PlainFile(img)), []) == (Tag(P3), Stream(Contents(img), false, false))
    ensures Identify(HeaderTag(PlainFile(img))) == Some(P3)
  {
    ContentsStart(img);
    TagThenSpace(P3, Contents(img));
  }

  /** The header reads three words; when the first is not a comment, the
      comment loop passes it through. */
  lemma ReadHeaderWords(ws: seq<seq<byte>>, rest: seq<byte>)
    requires Spaced(HeaderSeps, ws) && !IsComment(ws[0])
    requires rest != [] && IsSpace(rest[0])
    ensures PlainHeader(Stream(Joined(HeaderSeps, ws) + rest, false, false))
            == Some((ws[0], ws[1], [], Stream(rest, false, false)))
  {
    var seps := HeaderSeps;
    var st := Stream(Joined(seps, ws) + rest, false, false);
    var s1 := Stream(Joined(seps[1..], ws[1..]) + rest, false, false);
    var s2 := Stream(Joined(seps[1..][1..], ws[1..][1..]) + rest, false, false);
    ExtractFirst(seps, ws, rest, []);
    assert ExtractWord(st, []) == (ws[0], s1);
    assert SkipComments(s1, ws[0], []) == Some((ws[0], [], s1));
    ExtractFirst(seps[1..], ws[1..], rest, []);
    assert ExtractWord(s1, []) == (ws[1], s2);
    ExtractFirst(seps[1..][1..], ws[1..][1..], rest, []);
    assert Joined(seps[1..][1..][1..], ws[1..][1..][1..]) == [];
    assert ExtractWord(s2, []).1 == Stream(rest, false, false);
  }

  /** The header numbers are words. */
  lemma HeaderSpaced(img: Image)
    ensures Spaced(HeaderSeps, HeaderWords(img))
  {
    NumeralIsWord(img.w);
    NumeralIsWord(img.h);
    NumeralIsWord(255);
  }

  /** The header numbers of `img` are read as its two dimension words, whatever
      follows them, with the stream left at what follows. */
  lemma HeaderOf(img: Image, rest: seq<byte>)
    requires rest != [] && IsSpace(rest[0])
    ensures PlainHeader(Stream(Joined(HeaderSeps, HeaderWords(img)) + rest, false, false))
            == Some((Decimal(img.w), Decimal(img.h), [], Stream(rest, false, false)))
  {
    HeaderSpaced(img);
    ReadHeaderWords(HeaderWords(img), rest);
  }

  /** The body followed by a line break starts with whitespace. */
  lemma BodyThenSpace(ps: seq<Rgb>)
    requires AllLevels(ps)
    ensures Body(ps) + [NewLine] != [] && IsSpace((Body(ps) + [NewLine])[0])
  {
    BodySpaced(ps);
    JoinedThenSpace(Layout(|ps|), Spell(Channels(ps)), [NewLine]);
  }

  /** The pixel loop of a plain-text file, once the two dimensions are known. */
  lemma PlainPixelsOf(img: Image, w: nat, h: nat, line: seq<byte>)
    requires AllLevels(img.pixels)
    requires w <= IntMax && h <= IntMax && w * h == |img.pixels|
    requires Valid(Image(w, h, img.pixels))
    ensures PlainPixels(w, h, Stream(Body(img.pixels) + [NewLine], false, false), line, false)
            == Some(Image(w, h, img.pixels))
  {
    ReadColorWordsOf(img.pixels, [NewLine], line);
    assert Unsigned(w) == w && Unsigned(h) == h && Unsigned(w * h) == w * h;
  }

  /** A plain-text file is dispatched to the plain-text branches. */
  lemma ReadPPMOfPlainFile(img: Image)
    requires AllLevels(img.pixels)
    ensures ReadPPM(Some(PlainFile(img))) == ReadPlain(Stream(Contents(img), false, false), false)
    ensures ReadPPMCorrected(Some(PlainFile(img)))
            == ReadPlainCorrected(Stream(Contents(img), false, false), false)
  {
    ContentsStart(img);
    ReadP3(Contents(img));
  }

  /** A file whose first word is "P3" goes to the P3 branch. */
  lemma ReadP3(rest: seq<byte>)
    requires rest != [] && IsSpace(rest[0])
    ensures ReadPPM(Some(Tag(P3) + rest)) == ReadPlain(Stream(rest, false, false), false)
    ensures ReadPPMCorrected(Some(Tag(P3) + rest)) == ReadPlainCorrected(Stream(rest, false, false), false)
  {
    TagThenSpace(P3, rest);
  }

  /** As written, the plain-text branch reads both dimensions from the width. */
  lemma ReadPlainOfFile(img: Image)
    requires AllLevels(img.pixels) && img.w <= IntMax
    ensures ReadPlain(Stream(Contents(img), false, false), false)
            == PlainPixels(img.w, img.w, Stream(Body(img.pixels) + [NewLine], false, false), [], false)
  {
    BodyThenSpace(img.pixels);
    HeaderOf(img, Body(img.pixels) + [NewLine]);
    AtoiOfDecimal(img.w);
  }

  /** The corrected branch reads the width and the height. */
  lemma ReadPlainCorrectedOfFile(img: Image)
    requires AllLevels(img.pixels) && img.w <= IntMax && img.h <= IntMax
    ensures ReadPlainCorrected(Stream(Contents(img), false, false), false)
            == PlainPixels(img.w, img.h, Stream(Body(img.pixels) + [NewLine], false, false), [], false)
  {
    BodyThenSpace(img.pixels);
    HeaderOf(img, Body(img.pixels) + [NewLine]);
    AtoiOfDecimal(img.w);
    AtoiOfDecimal(img.h);
  }

  // ---------------------------------------------------------------------------
  // Comments

  /** A plain-text file with a comment line after its tag: '#', then the
      comment's text `c`, then the line break that starts the header. */
  function CommentedFile(img: Image, c: seq<byte>): seq<byte>
    requires AllLevels(img.pixels)
  {
    Tag(P3) + ([NewLine, Hash] + c + Contents(img))
  }

  /** A commented plain-text file is dispatched to the plain-text branches. */
  lemma ReadPPMOfCommented(img: Image, c: seq<byte>)
    requires AllLevels(img.pixels)
    ensures ReadPPM(Some(CommentedFile(img, c)))
            == ReadPlain(Stream([NewLine, Hash] + c + Contents(img), false, false), false)
    ensures ReadPPMCorrected(Some(CommentedFile(img, c)))
            == ReadPlainCorrected(Stream([NewLine, Hash] + c + Contents(img), false, false), false)
  {
    ReadP3([NewLine, Hash] + c + Contents(img));
  }

  /** A word read after one more whitespace byte is the same word. */
  lemma ExtractWordAfterSpace(s: seq<byte>, d1: seq<byte>, d2: seq<byte>)
    requires s != [] && IsSpace(s[0])
    requires !ExtractWord(Stream(s, false, false), d2).1.fail
    ensures ExtractWord(Stream(s[1..], false, false), d1) == ExtractWord(Stream(s, false, false), d2)
  {
    assert SkipSpace(s) == SkipSpace(s[1..]);
  }

  /** The word `ifs >> l1` reads at a comment: '#' and the comment's leading
      run of non-space bytes; the stream stops at the rest of the text. */
  lemma CommentWord(c: seq<byte>, body: seq<byte>, dst: seq<byte>)
    requires body != [] && IsSpace(body[0])
    ensures var k := WordLength(c);
            ExtractWord(Stream([NewLine, Hash] + c + body, false, false), dst)
            == ([Hash] + c[..k], Stream(c[k..] + body, false, false))
  {
    var k := WordLength(c);
    var tail := c[k..] + body;
    assert tail != [] && IsSpace(tail[0]) by {
      if k < |c| {
        assert tail[0] == c[k];
      }
    }
    CommentSplit(c, k, body);
    ExtractWordOf([NewLine], [Hash] + c[..k], tail, dst);
  }

  lemma CommentSplit(c: seq<byte>, k: nat, body: seq<byte>)
    requires k <= |c|
    ensures [NewLine, Hash] + c + body == [NewLine] + ([Hash] + c[..k]) + (c[k..] + body)
  {
    assert c == c[..k] + c[k..];
  }

  /** The comment loop discards the rest of a comment line, whatever text it
      holds, and the header reads on as if the line were not there, except that
      `line` keeps the text after the comment's first word. */
  lemma HeaderAfterComment(c: seq<byte>, body: seq<byte>)
    requires forall i :: 0 <= i < |c| ==> c[i] != NewLine
    requires body != [] && body[0] == NewLine
    requires !ExtractWord(Stream(body, false, false), []).1.fail
    requires !IsComment(ExtractWord(Stream(body, false, false), []).0)
    ensures var h := PlainHeader(Stream(body, false, false));
            h.Some?
            && PlainHeader(Stream([NewLine, Hash] + c + body, false, false))
               == Some((h.value.0, h.value.1, c[WordLength(c)..], h.value.3))
  {
    CommentWord(c, body, []);
    CommentSkipped(c, body);
  }

  /** The comment loop at a comment word: the rest of the line goes into
      `line`, and the next word is the first word of `body`. */
  lemma CommentSkipped(c: seq<byte>, body: seq<byte>)
    requires forall i :: 0 <= i < |c| ==> c[i] != NewLine
    requires body != [] && body[0] == NewLine
    requires !ExtractWord(Stream(body, false, false), []).1.fail
    requires !IsComment(ExtractWord(Stream(body, false, false), []).0)
    ensures var k := WordLength(c);
            var (l1, s2) := ExtractWord(Stream(body, false, false), []);
            SkipComments(Stream(c[k..] + body, false, false), [Hash] + c[..k], []) == Some((l1, c[k..], s2))
  {
    var k := WordLength(c);
    GetLineOf(c[k..], body, []);
    ExtractWordAfterSpace(body, [Hash] + c[..k], []);
  }

  /** Whole comment lines: each is '#', a text without a newline, and a newline. */
  function CommentLines(cs: seq<seq<byte>>): seq<byte>
  {
    if cs == [] then [] else [Hash] + cs[0] + [NewLine] + CommentLines(cs[1..])
  }

  /** What `getline(ifs, line)` keeps of a comment line of text `c` once the
      comment's first word has been read: the text after that word. */
  function AfterFirstWord(c: seq<byte>): seq<byte> {
    c[WordLength(c)..]
  }

  /** The comment loop, with the rest `t` of a comment line still to read and then
      any number of whole comment lines. When the word after them is not a
      comment, the loop stops at it, and `line` holds the text of the last comment
      line after its first word. When the data ends first, the loop never ends. */
  lemma {:induction false} SkipCommentLines(t: seq<byte>, cs: seq<seq<byte>>, body: seq<byte>,
                                            word: seq<byte>, line: seq<byte>)
    requires IsComment(word)
    requires forall i :: 0 <= i < |t| ==> t[i] != NewLine
    requires forall j, i :: 0 <= j < |cs| && 0 <= i < |cs[j]| ==> cs[j][i] != NewLine
    requires var (w, s) := ExtractWord(Stream(body, false, false), []);
             !s.fail ==> !IsComment(w)
    ensures var (w, s) := ExtractWord(Stream(body, false, false), []);
            SkipComments(Stream(t + [NewLine] + CommentLines(cs) + body, false, false), word, line)
            == if s.fail then None
               else Some((w, if cs == [] then t else AfterFirstWord(cs[|cs| - 1]), s))
    decreases |cs|
  {
    var x := CommentLines(cs) + body;
    assert t + [NewLine] + CommentLines(cs) + body == t + [NewLine] + x;
    var (w, s) := ExtractWord(Stream(body, false, false), []);
    if cs == [] {
      assert x == body;
      SkipCommentsLast(t, body, word, line);
    } else {
      var k := WordLength(cs[0]);
      var next := Stream(cs[0][k..] + [NewLine] + CommentLines(cs[1..]) + body, false, false);
      assert SkipComments(Stream(t + [NewLine] + x, false, false), word, line)
             == SkipComments(next, [Hash] + cs[0][..k], t) by {
        SkipCommentStep(t, x, word, line);
        CommentLinesWord(cs, body, word);
      }
      assert SkipComments(next, [Hash] + cs[0][..k], t)
             == if s.fail then None else Some((w, AfterFirstWord(cs[|cs| - 1]), s)) by {
        CommentTextsRest(cs);
        SkipCommentLines(cs[0][k..], cs[1..], body, [Hash] + cs[0][..k], t);
      }
    }
  }

  /** `ifs >> l1` at the first of some whole comment lines. */
  lemma CommentLinesWord(cs: seq<seq<byte>>, body: seq<byte>, dst: seq<byte>)
    requires cs != []
    ensures var k := WordLength(cs[0]);
            ExtractWord(Stream(CommentLines(cs) + body, false, false), dst)
            == ([Hash] + cs[0][..k], Stream(cs[0][k..] + [NewLine] + CommentLines(cs[1..]) + body, false, false))
  {
    var c := cs[0];
    var more := CommentLines(cs[1..]) + body;
    assert CommentLines(cs) + body == [Hash] + c + [NewLine] + more;
    CommentLineWord(c, more, dst);
    assert c[WordLength(c)..] + [NewLine] + more
           == c[WordLength(c)..] + [NewLine] + CommentLines(cs[1..]) + body;
  }

  /** The comment texts after the first: still newline-free, and the last of
      them is the last of all. */
  lemma CommentTextsRest(cs: seq<seq<byte>>)
    requires cs != []
    requires forall j, i :: 0 <= j < |cs| && 0 <= i < |cs[j]| ==> cs[j][i] != NewLine
    ensures forall i :: 0 <= i < |AfterFirstWord(cs[0])| ==> AfterFirstWord(cs[0])[i] != NewLine
    ensures forall j, i :: 0 <= j < |cs[1..]| && 0 <= i < |cs[1..][j]| ==> cs[1..][j][i] != NewLine
    ensures (if cs[1..] == [] then AfterFirstWord(cs[0]) else AfterFirstWord(cs[1..][|cs[1..]| - 1]))
            == AfterFirstWord(cs[|cs| - 1])
  {
    var c := cs[0];
    var k := WordLength(c);
    forall i | 0 <= i < |c[k..]|
      ensures c[k..][i] != NewLine
    {
      assert c[k..][i] == cs[0][k + i];
    }
    forall j, i | 0 <= j < |cs[1..]| && 0 <= i < |cs[1..][j]|
      ensures cs[1..][j][i] != NewLine
    {
      assert cs[1..][j] == cs[j + 1];
    }
  }

  /** The comment loop at the last comment line: it stops at the word after it,
      unless the data ends first. */
  lemma SkipCommentsLast(t: seq<byte>, body: seq<byte>, word: seq<byte>, line: seq<byte>)
    requires IsComment(word)
    requires forall i :: 0 <= i < |t| ==> t[i] != NewLine
    requires var (w, s) := ExtractWord(Stream(body, false, false), []);
             !s.fail ==> !IsComment(w)
    ensures var (w, s) := ExtractWord(Stream(body, false, false), []);
            SkipComments(Stream(t + [NewLine] + body, false, false), word, line)
            == if s.fail then None else Some((w, t, s))
  {
    SkipCommentStep(t, body, word, line);
    ExtractWordAnyDst(body, word);
  }

  /** One turn of the comment loop: `getline` takes the rest `t` of the line and
      the newline, and `ifs >> l1` reads on from there. */
  lemma SkipCommentStep(t: seq<byte>, x: seq<byte>, word: seq<byte>, line: seq<byte>)
    requires IsComment(word)
    requires forall i :: 0 <= i < |t| ==> t[i] != NewLine
    ensures var (w, s) := ExtractWord(Stream(x, false, false), word);
            SkipComments(Stream(t + [NewLine] + x, false, false), word, line) == SkipComments(s, w, t)
  {
    GetLineOf(t, [NewLine] + x, line);
    assert t + [NewLine] + x == t + ([NewLine] + x);
    assert ([NewLine] + x)[1..] == x;
  }

  /** `ifs >> l1` at a whole comment line of text `c`: the word is '#' and the
      text's leading run of non-space bytes, and the stream stops at the rest of
      the text. */
  lemma CommentLineWord(c: seq<byte>, more: seq<byte>, dst: seq<byte>)
    ensures var k := WordLength(c);
            ExtractWord(Stream([Hash] + c + [NewLine] + more, false, false), dst)
            == ([Hash] + c[..k], Stream(c[k..] + [NewLine] + more, false, false))
  {
    var k := WordLength(c);
    var ws := [Hash] + c[..k];
    var tail := c[k..] + [NewLine] + more;
    CommentLineSplit(c, more);
    ExtractWordOf([], ws, tail, dst);
  }

  /** A whole comment line splits into the word `ifs >> l1` reads there and a
      rest that starts with whitespace. */
  lemma CommentLineSplit(c: seq<byte>, more: seq<byte>)
    ensures var k := WordLength(c);
            && [] + ([Hash] + c[..k]) + (c[k..] + [NewLine] + more) == [Hash] + c + [NewLine] + more
            && (forall i :: 0 <= i < |[Hash] + c[..k]| ==> !IsSpace(([Hash] + c[..k])[i]))
            && IsSpace((c[k..] + [NewLine] + more)[0])
  {
    var k := WordLength(c);
    CommentLineJoin(c[..k], c[k..], more);
    assert c[..k] + c[k..] == c;
    HashWordSolid(c);
    if k < |c| {
      assert (c[k..] + [NewLine] + more)[0] == c[k];
    }
  }

  /** Regrouping a comment line around the end of its first word. */
  lemma CommentLineJoin(a: seq<byte>, b: seq<byte>, more: seq<byte>)
    ensures [] + ([Hash] + a) + (b + [NewLine] + more) == [Hash] + (a + b) + [NewLine] + more
  {
  }

  /** The word read at a comment line holds no whitespace. */
  lemma HashWordSolid(c: seq<byte>)
    ensures var ws := [Hash] + c[..WordLength(c)];
            forall i :: 0 <= i < |ws| ==> !IsSpace(ws[i])
  {
    var ws := [Hash] + c[..WordLength(c)];
    forall i | 0 <= i < |ws|
      ensures !IsSpace(ws[i])
    {
      if i > 0 {
        assert ws[i] == c[i - 1];
      }
    }
  }

  /** Where `ifs >> l1` stops does not depend on what `l1` held, nor does the
      word it reads; on failure `l1` keeps its value. */
  lemma ExtractWordAnyDst(s: seq<byte>, dst: seq<byte>)
    ensures ExtractWord(Stream(s, false, false), dst).1 == ExtractWord(Stream(s, false, false), []).1
    ensures var (w, r) := ExtractWord(Stream(s, false, false), []);
            ExtractWord(Stream(s, false, false), dst).0 == if r.fail then dst else w
  {
  }

  /** A comment line before the header numbers of `img`: the header reads both
      dimension words and the stream stops where it would without the comment;
      `line` holds the comment's text after its first word. */
  lemma HeaderComment(img: Image, c: seq<byte>, rest: seq<byte>)
    requires forall i :: 0 <= i < |c| ==> c[i] != NewLine
    requires rest != [] && IsSpace(rest[0])
    ensures PlainHeader(Stream([NewLine, Hash] + c + (Joined(HeaderSeps, HeaderWords(img)) + rest), false, false))
            == Some((Decimal(img.w), Decimal(img.h), c[WordLength(c)..], Stream(rest, false, false)))
  {
    var body := Joined(HeaderSeps, HeaderWords(img)) + rest;
    HeaderSpaced(img);
    JoinedCons(HeaderSeps, HeaderWords(img), rest);
    ExtractFirst(HeaderSeps, HeaderWords(img), rest, []);
    assert !IsComment(Decimal(img.w));
    HeaderOf(img, rest);
    HeaderAfterComment(c, body);
  }

  /** Once the first read of the pixel loop succeeds, what `line` held before
      it no longer matters. */
  lemma ReadWordsAnyLine(st: Stream, l1: seq<byte>, l2: seq<byte>, n: nat)
    requires n == 0 || Sentry(st).0
    ensures ReadWords(st, l1, n) == ReadWords(st, l2, n)
  {
  }

  /** Once a pixel word follows, the pixel loop does not depend on `line`. */
  lemma PixelsAnyLine(w: int, h: int, st: Stream, l1: seq<byte>, l2: seq<byte>, gray: bool)
    requires Sentry(st).0
    ensures PlainPixels(w, h, st, l1, gray) == PlainPixels(w, h, st, l2, gray)
  {
    var count := Unsigned(Unsigned(w) * Unsigned(h));
    ReadWordsAnyLine(st, l1, l2, count);
    ReadWordsAnyLine(st, l1, l2, 3 * count);
  }

  /** As written, two headers that differ only in `line` give the same image
      when a pixel word follows them. */
  lemma SameHeaderAnyLine(st1: Stream, st2: Stream, l1: seq<byte>, l2: seq<byte>,
                          line1: seq<byte>, line2: seq<byte>, s: Stream, gray: bool)
    ensures PlainHeader(st1) == Some((l1, l2, line1, s)) && PlainHeader(st2) == Some((l1, l2, line2, s))
            && Sentry(s).0
            ==> ReadPlain(st1, gray) == ReadPlain(st2, gray)
  {
    if Sentry(s).0 {
      match Atoi(CString(l1))
      case None =>
      case Some(w) => PixelsAnyLine(w, w, s, line1, line2, gray);
    }
  }

  /** With the corrected decoder, likewise. */
  lemma SameHeaderAnyLineCorrected(st1: Stream, st2: Stream, l1: seq<byte>, l2: seq<byte>,
                                   line1: seq<byte>, line2: seq<byte>, s: Stream, gray: bool)
    ensures PlainHeader(st1) == Some((l1, l2, line1, s)) && PlainHeader(st2) == Some((l1, l2, line2, s))
            && Sentry(s).0
            ==> ReadPlainCorrected(st1, gray) == ReadPlainCorrected(st2, gray)
  {
    if Sentry(s).0 {
      match Atoi(CString(l1))
      case None =>
      case Some(w) =>
        match Atoi(CString(l2))
        case None =>
        case Some(h) => PixelsAnyLine(w, h, s, line1, line2, gray);
    }
  }

  /** Pixel words follow the header of a plain-text file with pixels. */
  lemma BodyStartsWord(ps: seq<Rgb>)
    requires AllLevels(ps) && ps != []
    ensures Sentry(Stream(Body(ps) + [NewLine], false, false)).0
  {
    BodySpaced(ps);
    ExtractFirst(Layout(|ps|), Spell(Channels(ps)), [NewLine], []);
  }

  /** As written and corrected, a comment line after the tag of a plain-text
      file with pixels changes nothing, whatever the comment's text. */
  lemma ReadCommented(img: Image, c: seq<byte>)
    requires AllLevels(img.pixels) && img.pixels != []
    requires forall i :: 0 <= i < |c| ==> c[i] != NewLine
    ensures ReadPPM(Some(CommentedFile(img, c))) == ReadPPM(Some(PlainFile(img)))
    ensures ReadPPMCorrected(Some(CommentedFile(img, c))) == ReadPPMCorrected(Some(PlainFile(img)))
  {
    var rest := Body(img.pixels) + [NewLine];
    var commented := [NewLine, Hash] + c + Contents(img);
    ReadP3(commented);
    ReadPPMOfPlainFile(img);
    BodyThenSpace(img.pixels);
    BodyStartsWord(img.pixels);
    HeaderComment(img, c, rest);
    HeaderOf(img, rest);
    SameHeaderAnyLine(Stream(commented, false, false), Stream(Contents(img), false, false),
                      Decimal(img.w), Decimal(img.h), c[WordLength(c)..], [],
                      Stream(rest, false, false), false);
    SameHeaderAnyLineCorrected(Stream(commented, false, false), Stream(Contents(img), false, false),
                               Decimal(img.w), Decimal(img.h), c[WordLength(c)..], [],
                               Stream(rest, false, false), false);
  }

  /** The corrected decoder reads back every image from its plain-text file with
      a comment line after the tag, whatever the comment's text. */
  lemma ReadCommentedRoundTrip(img: Image, c: seq<byte>)
    requires Valid(img) && AllLevels(img.pixels)
    requires img.w <= IntMax && img.h <= IntMax
    requires forall i :: 0 <= i < |c| ==> c[i] != NewLine
    ensures ReadPPMCorrected(Some(CommentedFile(img, c))) == Some(img)
  {
    var rest := Body(img.pixels) + [NewLine];
    ReadP3([NewLine, Hash] + c + Contents(img));
    BodyThenSpace(img.pixels);
    HeaderComment(img, c, rest);
    AtoiOfDecimal(img.w);
    AtoiOfDecimal(img.h);
    PlainPixelsOf(img, img.w, img.h, c[WordLength(c)..]);
  }

  /** Once the stream has failed, the pixel loop fills every pixel with the
      level of the stale `line`. */
  lemma StaleColorWords(st: Stream, line: seq<byte>, n: nat, v: byte)
    requires !Sentry(st).0 && LevelOf(line) == Some(v)
    ensures ReadColorWords(st, line, n) == Some(Fill(n, v))
  {
    ReadWordsStale(st, line, 3 * n);
    var ws := seq(3 * n, _ => line);
    assert forall i :: 0 <= i < |ws| ==> LevelOf(ws[i]) == Some(v);
    var vs := LevelsOf(ws).value;
    assert vs == seq(3 * n, _ => v) by {
      forall i | 0 <= i < 3 * n
        ensures vs[i] == v
      {
        assert LevelOf(ws[i]) == Some(vs[i]);
      }
    }
    assert Triples(vs, n) == Fill(n, v) by {
      forall i | 0 <= i < n
        ensures Triples(vs, n)[i] == FromBytes(v, v, v)
      {
        assert vs[3 * i] == v && vs[3 * i + 1] == v && vs[3 * i + 2] == v;
      }
    }
  }

  /** A w x w header with no pixel word after it: every pixel takes the level
      of the stale `line`. */
  lemma StaleSquare(w: nat, line: seq<byte>, v: byte)
    requires w <= IntMax && w * w <= IntMax && LevelOf(line) == Some(v)
    ensures PlainPixels(w, w, Stream([NewLine], false, false), line, false)
            == Some(Image(w, w, Fill(w * w, v)))
  {
    var st := Stream([NewLine], false, false);
    assert !Sentry(st).0;
    assert Unsigned(w) == w && Unsigned(w * w) == w * w;
    StaleColorWords(st, line, w * w, v);
  }

  lemma TruncatedHeader(w: nat, c: seq<byte>)
    requires forall i :: 0 <= i < |c| ==> c[i] != NewLine
    ensures PlainHeader(Stream([NewLine, Hash] + c + Contents(Image(w, w, [])), false, false))
            == Some((Decimal(w), Decimal(w), c[WordLength(c)..], Stream([NewLine], false, false)))
  {
    assert Body([]) + [NewLine] == [NewLine];
    HeaderComment(Image(w, w, []), c, [NewLine]);
  }

  /** n grey pixels of level v. */
  function Fill(n: nat, v: byte): (ps: seq<Rgb>)
    ensures |ps| == n && forall i :: 0 <= i < n ==> ps[i] == FromBytes(v, v, v)
  {
    seq(n, _ => FromBytes(v, v, v))
  }

  /** The plain-text branches on a square header with no pixels after it,
      behind a comment line. */
  lemma TruncatedCommentedBranch(w: nat, c: seq<byte>, v: byte)
    requires w <= IntMax && w * w <= IntMax
    requires forall i :: 0 <= i < |c| ==> c[i] != NewLine
    requires LevelOf(c[WordLength(c)..]) == Some(v)
    ensures var st := Stream([NewLine, Hash] + c + Contents(Image(w, w, [])), false, false);
            && ReadPlain(st, false) == Some(Image(w, w, Fill(w * w, v)))
            && ReadPlainCorrected(st, false) == Some(Image(w, w, Fill(w * w, v)))
  {
    var line := c[WordLength(c)..];
    var st := Stream([NewLine], false, false);
    assert PlainPixels(w, w, st, line, false) == Some(Image(w, w, Fill(w * w, v))) by {
      StaleSquare(w, line, v);
    }
    TruncatedHeader(w, c);
    AtoiOfDecimal(w);
  }

  /** A square header with no pixels after it, behind a comment line, as
      written and corrected: the pixel loop starts with `line` holding the
      comment's text after its first word, and every pixel takes its level. */
  lemma TruncatedCommented(w: nat, c: seq<byte>, v: byte)
    requires w <= IntMax && w * w <= IntMax
    requires forall i :: 0 <= i < |c| ==> c[i] != NewLine
    requires LevelOf(c[WordLength(c)..]) == Some(v)
    ensures ReadPPM(Some(CommentedFile(Image(w, w, []), c))) == Some(Image(w, w, Fill(w * w, v)))
    ensures ReadPPMCorrected(Some(CommentedFile(Image(w, w, []), c))) == Some(Image(w, w, Fill(w * w, v)))
  {
    ReadPPMOfCommented(Image(w, w, []), c);
    TruncatedCommentedBranch(w, c, v);
  }

  /** The plain-text branches on the same file without the comment. */
  lemma TruncatedPlainBranch(w: nat)
    requires w <= IntMax && w * w <= IntMax
    ensures var st := Stream(Contents(Image(w, w, [])), false, false);
            && ReadPlain(st, false) == Some(Image(w, w, Fill(w * w, 0)))
            && ReadPlainCorrected(st, false) == Some(Image(w, w, Fill(w * w, 0)))
  {
    var st := Stream([NewLine], false, false);
    assert PlainPixels(w, w, st, [], false) == Some(Image(w, w, Fill(w * w, 0))) by {
      assert LevelOf([]) == Some(0);
      StaleSquare(w, [], 0);
    }
    var st0 := Stream(Contents(Image(w, w, [])), false, false);
    assert PlainHeader(st0) == Some((Decimal(w), Decimal(w), [], st)) by {
      assert Body([]) + [NewLine] == [NewLine];
      HeaderOf(Image(w, w, []), [NewLine]);
    }
    AtoiOfDecimal(w);
    assert ReadPlain(st0, false) == Some(Image(w, w, Fill(w * w, 0)));
  }

  /** The same file without the comment: `line` starts empty, and every pixel
      is black. */
  lemma TruncatedPlain(w: nat)
    requires w <= IntMax && w * w <= IntMax
    ensures ReadPPM(Some(PlainFile(Image(w, w, [])))) == Some(Image(w, w, Fill(w * w, 0)))
    ensures ReadPPMCorrected(Some(PlainFile(Image(w, w, [])))) == Some(Image(w, w, Fill(w * w, 0)))
  {
    ReadPPMOfPlainFile(Image(w, w, []));
    TruncatedPlainBranch(w);
  }

  /** In a file that holds fewer pixels than its header announces, the text of
      a comment leaks into the image. A w x w header with no pixels after it
      reads, as written and corrected alike, as w*w black pixels, but behind a
      comment line as w*w pixels of the level the comment's text after its
      first word converts to: "# 7" gives level 7. */
  lemma CommentLeaks(w: nat, c: seq<byte>, v: byte)
    requires 0 < w <= IntMax && w * w <= IntMax
    requires forall i :: 0 <= i < |c| ==> c[i] != NewLine
    requires LevelOf(c[WordLength(c)..]) == Some(v) && v != 0
    ensures ReadPPM(Some(CommentedFile(Image(w, w, []), c))) != ReadPPM(Some(PlainFile(Image(w, w, []))))
    ensures ReadPPMCorrected(Some(CommentedFile(Image(w, w, []), c)))
            != ReadPPMCorrected(Some(PlainFile(Image(w, w, []))))
  {
    TruncatedCommented(w, c, v);
    TruncatedPlain(w);
    MulMonotone(1, w, w);
    assert Fill(w * w, v)[0] != Fill(w * w, 0)[0];
  }

  /** "# 7": the comment's text after its first word, " 7", converts to 7. */
  lemma SevenComment()
    ensures WordLength([Space, 55]) == 0
    ensures LevelOf([Space, 55][WordLength([Space, 55])..]) == Some(7)
  {
    var s: seq<byte> := [Space, 55];
    CStringOfNonNul(s);
    assert SkipSpace(s) == [55] == SkipSpace([55]) by {
      assert s[1..] == [55];
    }
    AtoiOfNumeral([55]);
    assert DigitsValue([55]) == 7 by {
      assert [55][..0] == [];
    }
  }

  // ---------------------------------------------------------------------------
  // The finding

  /** As written, a plain-text file is read back exactly when the image is
      square. */
  lemma ReadPlainSquare(img: Image)
    requires Valid(img) && AllLevels(img.pixels)
    requires img.w == img.h && img.w <= IntMax
    ensures ReadPPM(Some(PlainFile(img))) == Some(img)
  {
    ReadPPMOfPlainFile(img);
    ReadPlainOfFile(img);
    PlainPixelsOf(img, img.w, img.h, []);
  }

  /** As written, no image whose width and height differ survives its own
      plain-text file: the decoder builds a square image. */
  lemma ReadPlainNotSquare(img: Image)
    requires Valid(img) && AllLevels(img.pixels)
    requires img.w != img.h
    ensures ReadPPM(Some(PlainFile(img))) != Some(img)
  {
    PlainTag(img);
  }

  /** The words the P3 loop reads from the 2 x 1 file once it expects 2 x 2
      pixels: the six levels, then six stale copies of the last. */
  lemma TwoByOneWords(ps: seq<Rgb>)
    requires ps == [Gray(1.0), Gray(2.0)]
    ensures ReadWords(Stream(Body(ps) + [NewLine], false, false), [], 12).0
            == Spell([1, 1, 1, 2, 2, 2, 2, 2, 2, 2, 2, 2])
  {
    var ws := Spell(Channels(ps));
    assert Channels(ps) == [1, 1, 1, 2, 2, 2];
    BodySpaced(ps);
    ReadJoined(Layout(|ps|), ws, [NewLine], [], 6, 12);
    ReadWordsStale(Stream([NewLine], false, false), Decimal(2), 6);
  }

  /** The smallest instance: a 2 x 1 image comes back 2 x 2, its second row
      filled from the stale `line`, which keeps repeating the last level read. */
  lemma ReadPlainTwoByOne()
    ensures ReadPPM(Some(PlainFile(Image(2, 1, [Gray(1.0), Gray(2.0)]))))
            == Some(Image(2, 2, [Gray(1.0), Gray(2.0), Gray(2.0), Gray(2.0)]))
  {
    var img := Image(2, 1, [Gray(1.0), Gray(2.0)]);
    var st := Stream(Body(img.pixels) + [NewLine], false, false);
    ReadPPMOfPlainFile(img);
    ReadPlainOfFile(img);
    var vs: seq<byte> := [1, 1, 1, 2, 2, 2, 2, 2, 2, 2, 2, 2];
    var ps := [Gray(1.0), Gray(2.0), Gray(2.0), Gray(2.0)];
    assert ReadColorWords(st, [], 4) == Some(ps) by {
      TwoByOneWords(img.pixels);
      LevelsOfSpell(vs);
      TwoByOneTriples(vs);
    }
    assert Unsigned(2) == 2 && Unsigned(2 * 2) == 4;
    assert PlainPixels(2, 2, st, [], false) == Some(Image(2, 2, ps));
  }

  lemma TwoByOneTriples(vs: seq<byte>)
    requires vs == [1, 1, 1, 2, 2, 2, 2, 2, 2, 2, 2, 2]
    ensures Triples(vs, 4) == [Gray(1.0), Gray(2.0), Gray(2.0), Gray(2.0)]
  {
    var ps := Triples(vs, 4);
    assert ps[0] == FromBytes(1, 1, 1) == Gray(1.0);
    assert ps[1] == FromBytes(2, 2, 2) == Gray(2.0);
    assert ps[2] == FromBytes(2, 2, 2);
    assert ps[3] == FromBytes(2, 2, 2);
  }

  /** The corrected decoder reads back every image from its plain-text file. */
  lemma ReadPlainCorrectedRoundTrip(img: Image)
    requires Valid(img) && AllLevels(img.pixels)
    requires img.w <= IntMax && img.h <= IntMax
    ensures ReadPPMCorrected(Some(PlainFile(img))) == Some(img)
  {
    ReadPPMOfPlainFile(img);
    ReadPlainCorrectedOfFile(img);
    PlainPixelsOf(img, img.w, img.h, []);
  }
}

=== FILE: raster.dfy ===
/** `Image`: a width x height raster stored as a flat row-major buffer, with its
    element access and arithmetic operators. Images are values: an operator that
    "mutates" its receiver in C++ here returns the new receiver, and the argument
    image, being a value, is never changed. */
module Raster {
  import opened Native
  import opened Pixel

  datatype Image = Image(w: nat, h: nat, pixels: seq<Rgb>)

  /** The default constructor's empty image, also the moved-from state. */
  const Empty: Image := Image(0, 0, [])

  /** The class invariant: the buffer holds w*h pixels. The bounds record the C++
      types: `w` and `h` are `unsigned int`, and every operator loops with a signed
      `int i < w * h`, so w*h must fit in an `int`. */
  predicate Valid(img: Image) {
    img.w <= UintMax && img.h <= UintMax && img.w * img.h <= IntMax
    && |img.pixels| == img.w * img.h
  }

  /** What the element-wise loops of `+=`, `-=`, `+` and `-` need: both images are
      well formed and `other` has a pixel for every index the receiver visits. */
  predicate Conforms(img: Image, other: Image) {
    Valid(img) && Valid(other) && |img.pixels| <= |other.pixels|
  }

  /** Both images have the same dimensions. */
  predicate SameShape(a: Image, b: Image) {
    a.w == b.w && a.h == b.h
  }

  lemma {:induction false} MulMonotone(a: nat, b: nat, c: nat)
    requires a <= b
    ensures a * c <= b * c
  {
    if a < b {
      MulMonotone(a, b - 1, c);
      assert (b - 1) * c + c == b * c;
    }
  }

  /** Row-major addressing stays inside the buffer. */
  lemma OffsetInBounds(w: nat, h: nat, x: nat, y: nat)
    requires x < w && y < h
    ensures y * w + x < w * h
  {
    MulMonotone(y + 1, h, w);
    assert (y + 1) * w == y * w + w;
  }

  /** Row-major addressing is one-to-one on coordinates inside the image. */
  lemma OffsetInjective(w: nat, x1: nat, y1: nat, x2: nat, y2: nat)
    requires x1 < w && x2 < w
    requires y1 * w + x1 == y2 * w + x2
    ensures x1 == x2 && y1 == y2
  {
    if y1 < y2 {
      MulMonotone(y1 + 1, y2, w);
    } else if y2 < y1 {
      MulMonotone(y2 + 1, y1, w);
    }
  }

  /** The buffer index `operator()(x, y)` addresses: y*w + x, inside the buffer. */
  function Offset(img: Image, x: nat, y: nat): (i: nat)
    requires Valid(img) && x < img.w && y < img.h
    ensures i < |img.pixels|
  {
    OffsetInBounds(img.w, img.h, x, y);
    y * img.w + x
  }

  /** Every buffer index is the offset of exactly one coordinate pair. */
  lemma OffsetOnto(img: Image, i: nat)
    requires Valid(img) && i < |img.pixels|
    ensures img.w > 0 && i % img.w < img.w && i / img.w < img.h
    ensures Offset(img, i % img.w, i / img.w) == i
  {
    var w := img.w;
    assert w > 0;
    if i / w >= img.h {
      MulMonotone(img.h, i / w, w);
      assert false;
    }
  }

  /** `operator()(x, y)` read: the pixel in column x of row y. The C++ asserts the
      bounds, so they are a precondition here. */
  function At(img: Image, x: nat, y: nat): (p: Rgb)
    requires Valid(img) && x < img.w && y < img.h
    ensures p in img.pixels
  {
    img.pixels[Offset(img, x, y)]
  }

  /** Every pixel of the buffer is reached by `operator()`: buffer cell i is
      the pixel in column i % w of row i / w. */
  lemma AtOnto(img: Image, i: nat)
    requires Valid(img) && i < |img.pixels|
    ensures img.w > 0 && i % img.w < img.w && i / img.w < img.h
    ensures At(img, i % img.w, i / img.w) == img.pixels[i]
  {
    OffsetOnto(img, i);
  }

  /** A write through the reference `operator()(x, y)` returns: the addressed
      pixel becomes `c` and every other pixel keeps its value. */
  function Put(img: Image, x: nat, y: nat, c: Rgb): (r: Image)
    requires Valid(img) && x < img.w && y < img.h
    ensures Valid(r) && SameShape(r, img)
    ensures At(r, x, y) == c
    ensures forall x': nat, y': nat :: x' < img.w && y' < img.h && (x' != x || y' != y) ==>
              At(r, x', y') == At(img, x', y')
  {
    var r := Image(img.w, img.h, img.pixels[Offset(img, x, y) := c]);
    forall x': nat, y': nat | x' < img.w && y' < img.h && (x' != x || y' != y)
      ensures At(r, x', y') == At(img, x', y')
    {
      if Offset(img, x', y') == Offset(img, x, y) {
        OffsetInjective(img.w, x', y', x, y);
      }
    }
    r
  }

  /** The sized constructor: a w x h image filled with `c` (black by default). */
  function Sized(w: nat, h: nat, c: Rgb): (img: Image)
    requires w <= UintMax && h <= UintMax && w * h <= IntMax
    ensures Valid(img) && img.w == w && img.h == h
    ensures forall x: nat, y: nat :: x < w && y < h ==> At(img, x, y) == c
  {
    Image(w, h, seq(w * h, _ => c))
  }

  /** `operator +=` on images: an in-place AVERAGE, pixel i becoming
      (p[i] + q[i]) * 0.5. */
  function AddAssign(img: Image, other: Image): (avg: Image)
    requires Conforms(img, other)
    ensures Valid(avg) && SameShape(avg, img)
    ensures forall i :: 0 <= i < |img.pixels| ==>
              avg.pixels[i].r == (img.pixels[i].r + other.pixels[i].r) / 2.0
              && avg.pixels[i].g == (img.pixels[i].g + other.pixels[i].g) / 2.0
              && avg.pixels[i].b == (img.pixels[i].b + other.pixels[i].b) / 2.0
  {
    Image(img.w, img.h,
          seq(|img.pixels|, i requires 0 <= i < |img.pixels| =>
                Scale(Sum(img.pixels[i], other.pixels[i]), 0.5)))
  }

  /** `operator -=` on images: in place, every pixel clamped-subtracted. */
  function SubAssign(img: Image, other: Image): (d: Image)
    requires Conforms(img, other)
    ensures Valid(d) && SameShape(d, img)
    ensures forall i :: 0 <= i < |img.pixels| ==> NonNegative(d.pixels[i])
    ensures forall i :: 0 <= i < |img.pixels| ==>
              IsClampedDifference(img.pixels[i].r, other.pixels[i].r, d.pixels[i].r)
              && IsClampedDifference(img.pixels[i].g, other.pixels[i].g, d.pixels[i].g)
              && IsClampedDifference(img.pixels[i].b, other.pixels[i].b, d.pixels[i].b)
  {
    Image(img.w, img.h,
          seq(|img.pixels|, i requires 0 <= i < |img.pixels| =>
                ClampedSub(img.pixels[i], other.pixels[i])))
  }

  /** `operator * (float)`: a copy with every channel scaled; the receiver is
      untouched. */
  function Times(img: Image, k: real): (s: Image)
    requires Valid(img)
    ensures Valid(s) && SameShape(s, img)
    ensures forall i :: 0 <= i < |img.pixels| ==>
              s.pixels[i].r == k * img.pixels[i].r
              && s.pixels[i].g == k * img.pixels[i].g
              && s.pixels[i].b == k * img.pixels[i].b
  {
    Image(img.w, img.h,
          seq(|img.pixels|, i requires 0 <= i < |img.pixels| => Scale(img.pixels[i], k)))
  }

  /** `operator + (const Image &)`: a copy holding the true, unclamped channel sum;
      unlike `+=` it does not average. */
  function Plus(img: Image, other: Image): (s: Image)
    requires Conforms(img, other)
    ensures Valid(s) && SameShape(s, img)
    ensures forall i :: 0 <= i < |img.pixels| ==>
              s.pixels[i].r - other.pixels[i].r == img.pixels[i].r
              && s.pixels[i].g - other.pixels[i].g == img.pixels[i].g
              && s.pixels[i].b - other.pixels[i].b == img.pixels[i].b
  {
    Image(img.w, img.h,
          seq(|img.pixels|, i requires 0 <= i < |img.pixels| =>
                Sum(img.pixels[i], other.pixels[i])))
  }

  /** `operator - (const Image &)`: a copy holding the zero-clamped difference. */
  function Minus(img: Image, other: Image): (d: Image)
    requires Conforms(img, other)
    ensures Valid(d) && SameShape(d, img)
    ensures d == SubAssign(img, other)
  {
    Image(img.w, img.h,
          seq(|img.pixels|, i requires 0 <= i < |img.pixels| =>
                ClampedSub(img.pixels[i], other.pixels[i])))
  }

  /** `alphacompo`: `F * alpha + B * (1 - alpha)`, built from the copying `*` and
      `+`; a per-channel linear blend with F's dimensions. */
  function AlphaCompo(f: Image, b: Image, alpha: real): (c: Image)
    requires Conforms(f, b)
    ensures Valid(c) && SameShape(c, f)
    ensures forall i :: 0 <= i < |f.pixels| ==>
              c.pixels[i].r == alpha * f.pixels[i].r + (1.0 - alpha) * b.pixels[i].r
              && c.pixels[i].g == alpha * f.pixels[i].g + (1.0 - alpha) * b.pixels[i].g
              && c.pixels[i].b == alpha * f.pixels[i].b + (1.0 - alpha) * b.pixels[i].b
    ensures alpha == 1.0 ==> c == f
    ensures alpha == 0.0 && SameShape(f, b) ==> c == b
  {
    Plus(Times(f, alpha), Times(b, 1.0 - alpha))
  }

  // ---------------------------------------------------------------------------
  // Relations between the operators

  /** `+=` is the sum scaled by one half. */
  lemma AddAssignIsHalfSum(img: Image, other: Image)
    requires Conforms(img, other)
    ensures AddAssign(img, other) == Times(Plus(img, other), 0.5)
  {
  }

  /** Each averaged channel lies between the two channels it averages. */
  lemma AddAssignBetween(img: Image, other: Image, i: nat)
    requires Conforms(img, other) && i < |img.pixels|
    ensures var p, q, a := img.pixels[i], other.pixels[i], AddAssign(img, other).pixels[i];
            (p.r <= a.r <= q.r || q.r <= a.r <= p.r)
            && (p.g <= a.g <= q.g || q.g <= a.g <= p.g)
            && (p.b <= a.b <= q.b || q.b <= a.b <= p.b)
  {
  }

  /** Averaging an image with itself leaves it unchanged. */
  lemma AddAssignSelf(img: Image)
    requires Valid(img)
    ensures AddAssign(img, img) == img
  {
  }

  /** Averaging all-black with all-white gives 127.5 everywhere, not 255. */
  lemma AddAssignBlackWhite(w: nat, h: nat)
    requires w <= UintMax && h <= UintMax && w * h <= IntMax
    ensures AddAssign(Sized(w, h, Black), Sized(w, h, Gray(255.0))) == Sized(w, h, Gray(127.5))
  {
  }

  /** `* 1` is the identity and `* 0` gives an all-black image of the same size. */
  lemma TimesEndpoints(img: Image)
    requires Valid(img)
    ensures Times(img, 1.0) == img
    ensures Times(img, 0.0) == Sized(img.w, img.h, Black)
  {
  }

  /** `-` undoes `+` on images whose channels are non-negative. */
  lemma PlusThenMinus(img: Image, other: Image)
    requires Conforms(img, other)
    requires forall i :: 0 <= i < |img.pixels| ==> NonNegative(img.pixels[i])
    ensures Minus(Plus(img, other), other) == img
  {
    var s := Plus(img, other);
    assert Conforms(s, other);
    forall i | 0 <= i < |img.pixels|
      ensures Minus(s, other).pixels[i] == img.pixels[i]
    {
      AddThenSub(img.pixels[i], other.pixels[i]);
    }
  }

  /** Blending with alpha = 1/2 is exactly the averaging `+=`. */
  lemma AlphaHalfIsAverage(f: Image, b: Image)
    requires Conforms(f, b)
    ensures AlphaCompo(f, b, 0.5) == AddAssign(f, b)
  {
  }
}

=== FILE: roundtrip.dfy ===
/** What reading back a file written by `savePPM` gives: the same dimensions,
    and every channel truncated and wrapped modulo 255. Channels that are
    integers in 0..254 therefore survive exactly; 255 comes back as 0. */
module RoundTrip {
  import opened Native
  import opened Optional
  import opened Pixel
  import opened Raster
  import opened Istream
  import opened Netpbm

  /** A channel value the P6 file reproduces exactly. */
  predicate IsStorable(v: real) {
    0.0 <= v <= 254.0 && v.Floor as real == v
  }

  predicate IsStorablePixel(p: Rgb) {
    IsStorable(p.r) && IsStorable(p.g) && IsStorable(p.b)
  }

  /** The pixel read back from the three bytes written for `p`. */
  function Reread(p: Rgb): (q: Rgb)
    requires EncodablePixel(p)
    ensures IsStorablePixel(p) ==> q == p
    ensures q == p ==> IsStorablePixel(p)
  {
    StorableChannel(p.r);
    StorableChannel(p.g);
    StorableChannel(p.b);
    FromBytes(EncodeChannel(p.r), EncodeChannel(p.g), EncodeChannel(p.b))
  }

  /** A channel survives its byte exactly when it is storable. */
  lemma StorableChannel(v: real)
    requires Encodable(v)
    ensures EncodeChannel(v) as real == v <==> IsStorable(v)
  {
  }

  function RereadAll(ps: seq<Rgb>): (qs: seq<Rgb>)
    requires forall i :: 0 <= i < |ps| ==> EncodablePixel(ps[i])
    ensures |qs| == |ps|
    ensures forall i :: 0 <= i < |ps| ==> qs[i] == Reread(ps[i])
  {
    seq(|ps|, i requires 0 <= i < |ps| => Reread(ps[i]))
  }

  /** The P6 pixel loop reads the body back pixel by pixel, whatever follows it. */
  lemma {:induction false} ReadTriplesOfBody(ps: seq<Rgb>, tail: seq<byte>, pix: seq<Option<byte>>)
    requires |pix| == 3
    requires forall i :: 0 <= i < |ps| ==> EncodablePixel(ps[i])
    ensures ReadTriples(Stream(EncodePixels(ps) + tail, false, false), pix, |ps|)
            == Some(RereadAll(ps))
    decreases |ps|
  {
    if |ps| > 0 {
      var rest := EncodePixels(ps[1..]) + tail;
      var st := Stream(EncodePixels(ps) + tail, false, false);
      var (buf, st') := Read(st, pix);
      assert buf == EncodedBuffer(ps[0]) && st' == Stream(rest, false, false) by {
        EncodeCons(ps, tail);
        ReadPixel(ps[0], rest, pix);
      }
      assert FromBytes(buf[0].value, buf[1].value, buf[2].value) == Reread(ps[0]);
      ReadTriplesOfBody(ps[1..], tail, buf);
      RereadAllCons(ps);
    }
  }

  /** The P6 pixel loop reads any body of 3n bytes as n pixels, bytes 3i, 3i+1
      and 3i+2 giving pixel i as they are, whatever follows the body and
      whatever the buffer held. */
  lemma {:induction false} ReadTriplesOf(bs: seq<byte>, tail: seq<byte>, pix: seq<Option<byte>>)
    requires |pix| == 3 && |bs| % 3 == 0
    ensures ReadTriples(Stream(bs + tail, false, false), pix, |bs| / 3) == Some(Triples(bs, |bs| / 3))
    decreases |bs|
  {
    if bs != [] {
      var buf := [Some(bs[0]), Some(bs[1]), Some(bs[2])];
      assert Read(Stream(bs + tail, false, false), pix) == (buf, Stream(bs[3..] + tail, false, false)) by {
        var data := bs + tail;
        assert 3 <= |bs| && data[0] == bs[0] && data[1] == bs[1] && data[2] == bs[2];
        assert data[3..] == bs[3..] + tail;
        var (got, _) := Read(Stream(data, false, false), pix);
        assert |got| == 3 && got[0] == buf[0] && got[1] == buf[1] && got[2] == buf[2];
        assert got == buf;
      }
      ReadTriplesOf(bs[3..], tail, buf);
      TriplesCons(bs, |bs| / 3);
    }
  }

  lemma TriplesCons(bs: seq<byte>, n: nat)
    requires |bs| == 3 * n && n > 0
    ensures Triples(bs, n) == [FromBytes(bs[0], bs[1], bs[2])] + Triples(bs[3..], n - 1)
  {
    var lhs := Triples(bs, n);
    var rhs := [FromBytes(bs[0], bs[1], bs[2])] + Triples(bs[3..], n - 1);
    forall i | 1 <= i < n
      ensures lhs[i] == rhs[i]
    {
      var k := 3 * (i - 1);
      assert k + 3 == 3 * i;
      assert bs[3..][k] == bs[3 * i] && bs[3..][k + 1] == bs[3 * i + 1] && bs[3..][k + 2] == bs[3 * i + 2];
    }
    assert lhs[0] == rhs[0];
  }

  /** The buffer `read(pix, 3)` fills with the bytes of `p`. */
  function EncodedBuffer(p: Rgb): (buf: seq<Option<byte>>)
    requires EncodablePixel(p)
    ensures |buf| == 3
  {
    [Some(EncodeChannel(p.r)), Some(EncodeChannel(p.g)), Some(EncodeChannel(p.b))]
  }

  /** `read(pix, 3)` takes the three bytes of one pixel. */
  lemma ReadPixel(p: Rgb, rest: seq<byte>, pix: seq<Option<byte>>)
    requires EncodablePixel(p) && |pix| == 3
    ensures Read(Stream(EncodePixel(p) + rest, false, false), pix)
            == (EncodedBuffer(p), Stream(rest, false, false))
  {
    var st := Stream(EncodePixel(p) + rest, false, false);
    assert st.rest[3..] == rest;
    var (buf, st') := Read(st, pix);
    assert st' == Stream(rest, false, false);
    assert st.rest[..3] == EncodePixel(p);
    assert buf[0] == Some(EncodeChannel(p.r));
    assert buf[1] == Some(EncodeChannel(p.g));
    assert buf[2] == Some(EncodeChannel(p.b));
    assert buf == EncodedBuffer(p);
  }

  lemma EncodeCons(ps: seq<Rgb>, tail: seq<byte>)
    requires |ps| > 0 && forall i :: 0 <= i < |ps| ==> EncodablePixel(ps[i])
    ensures EncodePixels(ps) + tail == EncodePixel(ps[0]) + (EncodePixels(ps[1..]) + tail)
  {
  }

  lemma RereadAllCons(ps: seq<Rgb>)
    requires |ps| > 0 && forall i :: 0 <= i < |ps| ==> EncodablePixel(ps[i])
    ensures RereadAll(ps) == [Reread(ps[0])] + RereadAll(ps[1..])
  {
  }

  /** `>> n` after a whitespace byte reads back a numeral that ends at a
      non-digit. */
  lemma ExtractIntOfNumeral(sep: byte, n: nat, tail: seq<byte>, dst: Option<int>)
    requires IsSpace(sep) && n <= IntMax
    requires tail != [] && !IsDigit(tail[0])
    ensures ExtractInt(Stream([sep] + Decimal(n) + tail, false, false), dst)
            == (Some(n), Stream(tail, false, false))
  {
    var ds := Decimal(n);
    var s := [sep] + ds + tail;
    assert s[1..] == ds + tail;
    assert SkipSpace(s) == SkipSpace(ds + tail);
    assert (ds + tail)[0] == ds[0];
    DigitRunOfNumeral(ds, tail);
    assert (ds + tail)[|ds|..] == tail;
  }

  /** The header `savePPM` writes is parsed back by the P6 branch, which then
      stands at the first body byte. */
  lemma {:induction false} ReadHeader(w: nat, h: nat, body: seq<byte>)
    requires 0 < w <= IntMax && 0 < h <= IntMax
    ensures var (word, st) := ExtractWord(Open(Header(w, h) + body), []);
            && CString(word) == Tag(P6)
            && var (wv, s1) := ExtractInt(st, None);
               var (hv, s2) := ExtractInt(s1, None);
               var (_, s3) := ExtractInt(s2, None);
               && wv == Some(w) && hv == Some(h)
               && Ignore(s3, IgnoreLimit, NewLine) == Stream(body, false, false)
  {
    var dw, dh := Decimal(w), Decimal(h);
    var t3 := [NewLine] + body;
    var t2 := [NewLine] + [50, 53, 53] + t3;
    var t1 := [Space] + dh + t2;
    var t0 := [NewLine] + dw + t1;
    var data := Header(w, h) + body;
    assert data == [80, 54] + t0;
    assert Decimal(255) == [50, 53, 53];

    // the tag word
    assert SkipSpace(data) == data;
    assert WordLength(data[2..]) == 0;
    assert WordLength(data) == 2;
    var (word, st) := ExtractWord(Open(data), []);
    assert data[2..] == t0;
    assert word == [80, 54] && st == Stream(t0, false, false);
    assert CString(word) == [80, 54];

    // the three numbers and the line break after them
    ExtractIntOfNumeral(NewLine, w, t1, None);
    ExtractIntOfNumeral(Space, h, t2, None);
    ExtractIntOfNumeral(NewLine, 255, t3, None);
    assert t2 == [NewLine] + Decimal(255) + t3;
  }

  /** Reading back what `savePPM` wrote gives an image of the same size whose
      channels went through the truncating, wrapping channel encoding. */
  lemma SaveThenReadLossy(img: Image)
    requires Valid(img) && img.w > 0 && img.h > 0
    requires forall i :: 0 <= i < |img.pixels| ==> EncodablePixel(img.pixels[i])
    ensures SavePPM(img).Some?
    ensures ReadPPM(SavePPM(img)) == Some(Image(img.w, img.h, RereadAll(img.pixels)))
  {
    var w, h := img.w, img.h;
    MulMonotone(1, h, w);
    MulMonotone(1, w, h);
    var body := EncodePixels(img.pixels);
    assert SavePPM(img) == Some(Header(w, h) + body);
    ReadSaved(img);
    ReadP6(w, h, body);
  }

  /** A file that starts with the header `savePPM` writes goes to the P6 branch. */
  lemma ReadP6(w: nat, h: nat, body: seq<byte>)
    requires 0 < w <= IntMax && 0 < h <= IntMax
    ensures ReadPPM(Some(Header(w, h) + body))
            == ReadBinary(ExtractWord(Open(Header(w, h) + body), []).1, false)
  {
    ReadHeader(w, h, body);
  }

  /** The P6 branch reads the header and the body `savePPM` writes. */
  lemma ReadSaved(img: Image)
    requires Valid(img) && img.w > 0 && img.h > 0
    requires forall i :: 0 <= i < |img.pixels| ==> EncodablePixel(img.pixels[i])
    ensures var data := Header(img.w, img.h) + EncodePixels(img.pixels);
            ReadBinary(ExtractWord(Open(data), []).1, false) == Some(Image(img.w, img.h, RereadAll(img.pixels)))
  {
    var w, h := img.w, img.h;
    MulMonotone(1, h, w);
    MulMonotone(1, w, h);
    var body := EncodePixels(img.pixels);
    var st := ExtractWord(Open(Header(w, h) + body), []).1;
    var (wv, s1) := ExtractInt(st, None);
    var (hv, s2) := ExtractInt(s1, None);
    var s3 := ExtractInt(s2, None).1;
    assert wv == Some(w) && hv == Some(h) && Ignore(s3, IgnoreLimit, NewLine) == Stream(body, false, false) by {
      ReadHeader(w, h, body);
    }
    assert ReadTriples(Stream(body, false, false), [None, None, None], w * h) == Some(RereadAll(img.pixels)) by {
      ReadTriplesOfBody(img.pixels, [], [None, None, None]);
      assert body + [] == body;
    }
  }

  /** The round trip: an image whose channels are integers in 0..254 is read back
      exactly from the P6 file `savePPM` writes for it. */
  lemma SaveThenRead(img: Image)
    requires Valid(img) && img.w > 0 && img.h > 0
    requires forall i :: 0 <= i < |img.pixels| ==> IsStorablePixel(img.pixels[i])
    ensures forall i :: 0 <= i < |img.pixels| ==> EncodablePixel(img.pixels[i])
    ensures SavePPM(img).Some?
    ensures ReadPPM(SavePPM(img)) == Some(img)
  {
    SaveThenReadLossy(img);
    assert RereadAll(img.pixels) == img.pixels;
  }

  /** The wrap is lossy: a white pixel is read back black. */
  lemma WhiteComesBackBlack()
    ensures ReadPPM(SavePPM(Image(1, 1, [Gray(255.0)]))) == Some(Image(1, 1, [Black]))
  {
    SaveThenReadLossy(Image(1, 1, [Gray(255.0)]));
    assert RereadAll([Gray(255.0)]) == [Black];
  }
}
